=== FILE: README.md ===
# Arachnid crawl step, URL parser and frontier in Dafny

Arachnid crawls a website. It starts from a seed URL and keeps a frontier: a FIFO queue of crawl URLs plus a
seen-set of their canonical spellings. It repeatedly takes the next URL off the frontier, fetches it, and
scrapes the response. From a page it takes emails, phone numbers, social media links and custom-regex
matches, and offers the links it finds back to the frontier. Other responses are handed to a document
extractor. The findings go to a per-netloc output. This project models four parts of that system.

- **The URL parser** (`urls.dfy`). `parse_url` splits a URL into eight string parts: scheme, subdomain,
  domain, tld, path, params, query and fragment. `get_url` spells them back. `same_netloc` and
  `is_subdomain` compare two hosts.
  - The parser's own file is not part of this model. The splitting is modelled on Python's `urlparse`,
    as far as the test expectations fix it:
    - the netloc runs to the first '/', '?' or '#';
    - the fragment follows the first '#', the query the first '?' before it, and the params the first ';'
      of the last path segment;
    - the netloc is split on its two rightmost dots.
  - It differs from `urlparse` in these points:
    - the scheme is any non-empty text before the first ':', where `urlparse` only accepts letters, digits,
      '+', '-' and '.';
    - "//" must follow the scheme, so a URL without a netloc is an error rather than a path;
    - params are split off for every scheme, where `urlparse` does so only for the schemes it lists.
  - `CrawlerURL(s, allow_fragments=False)` is modelled as parsing the fragment and then dropping it
    (`CrawlUrls.FromString`). `urlparse` with `allow_fragments=False` would instead keep "#..." inside the
    path or query. The model chooses the first reading because a crawl URL is identified by its spelling
    without a fragment.
  - Round trip: for well-formed parts, parsing the reconstruction gives the same parts back.
  - Every URL the parser accepts yields well-formed parts.
  - `UrlExamples` (`url_examples.dfy`) proves the URL cases of `tests.py` against the model.
- **The frontier** (`scheduler.dfy`). It is a `Scheduler<T>` class with a queue and a seen-set.
  - An item is queued only when the scope policy admits it and its key was never seen.
  - Taking an item off the queue leaves its key in the seen-set.
  - The class invariant says that every item ever queued has its own key and that the seen-set holds
    exactly those keys, so no key is ever handed out twice.
  - The tests' `Path_Scheduler` is this class with paths as their own keys (`scheduler_examples.dfy`).
  - The crawler's scheduler is this class with crawl URLs keyed by their spelling without fragment.
- **The configuration** (`config.dfy`). `CrawlerConfig` is a class whose presets overwrite some fields and
  leave the others as they were.
- **One crawl step** (`crawler.dfy`). This is `Crawler.crawl_next` with `_parse_page` and `_parse_document`,
  modelled on a `Crawler` class with the schedule and an output log.
  - Each call of `DomainData.add_*` becomes one `Record` appended to `output`.
  - The HTTP fetch is a function parameter that returns a `FetchOutcome`.
  - The scraper's findings, `join_url` (`join`), `get_extension` (`extension`) and the document extractor
    are inputs too.
  - Each method is proved against a specification function of the old state and the inputs
    (`StepRecords`, `StepLinks`, `PageRecords`, `Accepted`). Lemmas state what those functions guarantee.

The exceptions the source relies on are modelled as the control flow they cause:

- A joined href that is not a URL makes `CrawlerURL` raise. This ends the page: the remaining hrefs are not
  offered and no page record is added.
- A page without a `<title>` element makes `scraper.title.string` raise. The links are already scheduled,
  but no page record is added.
- A failed fetch, or a response without a content-type header, raises too. It adds nothing.
- In every one of these cases `crawl_next` catches the exception and still returns True. The dequeued URL
  keeps its key in the seen-set, so it is never scheduled again.

The usual registered-domain reading of `is_subdomain` is "same domain and tld, a different non-empty subdomain". However,
`tests.py:96-99` expects `is_subdomain("https://www.example.com", "https://www.example.io")` to hold, and the
tld differs there. The implementation is not part of this model. `Urls.IsSubdomain` therefore takes a
`SubdomainReading`:

- `RegisteredDomain` is that reading;
- `DomainLabel` means the same domain label and a different netloc, which the tests at `tests.py:96-109` agree with.

Every `is_subdomain` test case is proved for the reading(s) under which it holds.
`UrlExamples.SubdomainAcrossTlds` shows that the test above holds only under `DomainLabel`.

## Model

| member | source | states |
|---|---|---|
| Urls.Parse | tests.py:74-84 | `parse_url`; no contract of its own: `ParseShape`, `ParseWellFormed` and `ParseReconstruct` state what it accepts and what it returns |
| Urls.Reconstruct | tests.py:86-94 | `get_url`; no contract of its own: `ParseReconstruct`, `ReconstructParseAllParts` and `ReconstructParsePathOnly` state that it inverts `Parse` |
| Urls.ParseReconstruct | tests.py:86-94 | parsing the URL that well-formed parts spell gives exactly those parts back |
| Urls.ParseWellFormed | tests.py:86-94 | every URL the parser accepts yields well-formed parts, so re-parsing `get_url` of its parse gives the same parse |
| Urls.ParseShape | tests.py:74-84 | an accepted URL is its scheme, "://", the netloc its host parts spell, and a tail that splits into path, params, query and fragment; the scheme has no ':' and the netloc no '/', '?' or '#' |
| Urls.SplitTailParts | tests.py:74-84 | what follows the netloc splits into a path that is empty or absolute, params without '/', a query without '#', each part free of the separators after it; with params, query and fragment all present the four parts spell the tail again; without separators everything is path and the other three are empty |
| Urls.SplitHostJoin | tests.py:77 | the netloc `subdomain.domain.tld` splits back on its two rightmost dots into the same three parts, including an empty subdomain |
| Urls.SplitParamsJoin | tests.py:77 | `path;params` splits back into path and params at the first ';' of the last path segment |
| Urls.SplitTailJoin | tests.py:77 | the spelled tail `path;params?query#fragment` splits back into its four parts |
| Urls.ReconstructParseAllParts | tests.py:86-89 | any accepted URL with params, query and fragment all present is reproduced exactly by `get_url(parse_url(u))` |
| Urls.ReconstructParsePathOnly | tests.py:91-94 | any accepted URL without ';', '?' or '#' is reproduced exactly by `get_url(parse_url(u))` |
| Urls.SameNetloc | tests.py:111-119 | `same_netloc`; no contract of its own: `SameNetlocParts` states when it holds |
| Urls.SameNetlocParts | tests.py:111-119 | for well-formed parts, `same_netloc` holds exactly when subdomain, domain and tld are all equal |
| Urls.IsSubdomain | tests.py:96-109 | `is_subdomain` under either reading; no contract of its own: `IsSubdomainNeedsSameDomain`, `IsSubdomainNotSameNetloc` and `RegisteredDomainIsStricter` state its behaviour |
| Urls.IsSubdomainNeedsSameDomain | tests.py:101-104 | under either reading, `is_subdomain` implies equal domain names |
| Urls.IsSubdomainNotSameNetloc | tests.py:106-109 | under either reading, `is_subdomain` fails for two URLs on the same netloc |
| Urls.RegisteredDomainIsStricter | tests.py:96-99 | whatever the registered-domain reading accepts, the domain-label reading accepts too |
| UrlExamples.ParseAllParts | tests.py:74-78 | `parse_url` of the all-parts URL gives the eight expected parts, params apart from query |
| UrlExamples.ParsePathOnly | tests.py:80-84 | `parse_url` of the path-only URL gives empty params, query and fragment, not an error |
| UrlExamples.ReconstructAllParts | tests.py:86-89 | `get_url(parse_url(u)) == u` for the all-parts URL |
| UrlExamples.ReconstructPathOnly | tests.py:91-94 | `get_url(parse_url(u)) == u` for the path-only URL |
| UrlExamples.ParseHost | tests.py:97-98 | a bare `scheme://sub.domain.tld` parses into its host parts with an empty path, params, query and fragment |
| UrlExamples.SubdomainAcrossTlds | tests.py:96-99 | for hosts that differ only in tld, `is_subdomain` holds under the domain-label reading and fails under the registered-domain reading |
| UrlExamples.SubdomainOtherWebsite | tests.py:101-119 | for hosts with different domain names (the cases at lines 101-104 and 116-119), `is_subdomain` fails under either reading and `same_netloc` fails |
| UrlExamples.ParseHostPath | tests.py:106-114 | `scheme://sub.domain.tld/path`, with a path free of ';', '?' and '#', parses into its host parts and that path, with empty params, query and fragment |
| UrlExamples.SubdomainSameWebsite | tests.py:106-114 | for every well-formed host and any two absolute paths free of ';', '?' and '#', both URLs on that host parse, satisfy `same_netloc`, and fail `is_subdomain` under either reading |
| Scheduling.Scheduler.constructor | tests.py:124 | a new scheduler has an empty queue and an empty seen-set and satisfies the at-most-once invariant |
| Scheduling.Scheduler.Seeded | arachnid/crawler/crawler.py:62 | a scheduler built for a seed holds the seed as its one queued and seen item, and satisfies the invariant |
| Scheduling.Scheduler.Offer | tests.py:123-139 | `add_path` queues the item at the back and adds its key to the seen-set exactly when the policy admits it and its key was never seen, returns whether it did, and keeps the invariant; otherwise nothing changes |
| Scheduling.Scheduler.Next | tests.py:141-149 | `next_path` returns and removes the head of the queue, or None on an empty queue; the seen-set is unchanged and still holds the returned item's key |
| Scheduling.AcceptedFresh | tests.py:128-139 | the items a batch of offers queues carry distinct keys, none of them seen before |
| Scheduling.AcceptedSound | arachnid/crawler/crawler.py:104-107 | a batch of offers queues only admitted items of the batch |
| Scheduling.AcceptedInOrder | arachnid/crawler/crawler.py:104-107 | a batch of offers queues its items in the order offered: they sit at strictly increasing positions of the batch |
| Scheduling.AcceptedComplete | arachnid/crawler/crawler.py:104-107 | a batch of offers drops an admitted item only when its key was seen before or queued earlier in the batch: the key is among the keys queued by the batch up to and including that item |
| Scheduling.AcceptedKeepsFirst | arachnid/crawler/crawler.py:104-107 | of the admitted items of a batch that share an unseen key, the first is queued, at its own position, and so is among the items the whole batch queues |
| Scheduling.DistinctKeysPairwise | tests.py:134-139 | the invariant's "each key is new" is exactly "no two items ever queued share a key" |
| Scheduling.KeySetMembers | tests.py:128-139 | a key is in the seen-set of a sequence exactly when some item carries it |
| Scheduling.OfferStep | arachnid/crawler/crawler.py:105-107 | offering one more item after a batch leaves the queue and seen-set those of the longer batch |
| SchedulerExamples.AddNewPath | tests.py:123-126 | `add_path` on a fresh scheduler leaves exactly that path queued |
| SchedulerExamples.AddExistingUncrawledPath | tests.py:128-132 | `add_path` of a path still queued returns false |
| SchedulerExamples.AddExistingCrawledPath | tests.py:134-139 | `add_path` of a path already handed out by `next_path` returns false |
| SchedulerExamples.NextPath | tests.py:141-145 | `next_path` returns the path that was added |
| SchedulerExamples.NextPathEmptyContainer | tests.py:147-149 | `next_path` on an empty scheduler returns None |
| SchedulerExamples.FirstInFirstOut | tests.py:141-149 | two different paths come out in the order added, a repeated one only once, then None |
| CrawlUrls.FromString | arachnid/crawler/crawler.py:60 | `CrawlerURL(s, allow_fragments=False)`; no contract of its own: `FromStringCanonical` states what it builds |
| CrawlUrls.Key | arachnid/crawler/crawler.py:107 | the identity the scheduler's seen-set keeps for a crawl URL; no contract of its own: `KeyIdentifies` states what it tells apart |
| CrawlUrls.GetUrl | arachnid/crawler/crawler.py:72 | `c_url.get_url()`; no contract of its own: `FromStringCanonical` states that it spells the key and parses back into the parts |
| CrawlUrls.GetNetloc | arachnid/crawler/crawler.py:90 | `c_url.get_netloc()`; no contract of its own: `StepRecordsNetloc` states that every record is filed under it |
| CrawlUrls.FromStringCanonical | arachnid/crawler/crawler.py:60 | a crawl URL built with fragments disallowed has no fragment, its URL is its key, its parts are well-formed, and its URL parses back into them |
| CrawlUrls.KeyIdentifies | arachnid/crawler/crawler.py:107 | two well-formed crawl URLs share a key exactly when all their parts but the fragment agree |
| Config.CrawlerConfig.constructor | arachnid/crawler/crawler.py:14-15 | a new configuration holds every default value |
| Config.CrawlerConfig.SetDefault | arachnid/crawler/crawler.py:17-32 | every field is set to its default, whatever it held |
| Config.CrawlerConfig.SetStealth | arachnid/crawler/crawler.py:34-39 | robots obeyed, Google agent, high delay, path wordlist cleared; subdomain wordlist and all other fields unchanged |
| Config.CrawlerConfig.SetStealthCorrected | arachnid/crawler/crawler.py:34-39 | as `set_stealth`, but both wordlists cleared |
| Config.CrawlerConfig.SetAggressive | arachnid/crawler/crawler.py:41-45 | robots ignored, no delay, both wordlists cleared; agent and all scraping settings unchanged |
| Config.CrawlerConfig.SetLayoutOnly | arachnid/crawler/crawler.py:47-54 | subdomains, phones, emails, socials off, no documents, no custom string or regex; links and every other field unchanged |
| Config.StealthKeepsSubdomainList | arachnid/crawler/crawler.py:34-39 | after `set_stealth` a previously set subdomain wordlist is still set while the path wordlist is cleared |
| Config.CorrectedStealthDropsBothLists | arachnid/crawler/crawler.py:34-39 | after the corrected `set_stealth` both wordlists are cleared |
| Config.LayoutOnlyAfterDefault | arachnid/crawler/crawler.py:47-54 | the default configuration made layout-only still follows links and collects no emails, phones, socials or documents |
| Config.StealthThenAggressive | arachnid/crawler/crawler.py:34-45 | `set_aggressive` after `set_stealth` ignores robots with no delay but keeps the Google agent |
| Crawling.Crawler.constructor | arachnid/crawler/crawler.py:59-64 | the seed, without fragment, is the one URL queued and seen; the output is filed under its netloc and is empty |
| Crawling.Crawler.CrawlNext | arachnid/crawler/crawler.py:66-79 | returns false with nothing changed exactly when the queue is empty; otherwise removes the head for good (its key stays seen), appends the step's records and offers the step's links, routed by content type |
| Crawling.Crawler.ParsePage | arachnid/crawler/crawler.py:81-114 | appends the page's gated artifacts and then its page record unless a link or the title raised; offers the resolved links only when links are scraped, leaving the schedule untouched otherwise |
| Crawling.Crawler.AddArtifacts | arachnid/crawler/crawler.py:92-103 | one artifact loop appends one record per value, in order |
| Crawling.Crawler.AddPageArtifacts | arachnid/crawler/crawler.py:92-103 | the four gated loops append exactly the page's artifact records |
| Crawling.Crawler.ScheduleLinks | arachnid/crawler/crawler.py:104-107 | the hrefs, joined against the page URL, are offered in order up to the first that is not a URL; the schedule ends as after that batch of offers, and the result says whether all resolved |
| Crawling.Crawler.ParseDocument | arachnid/crawler/crawler.py:116-121 | appends the extracted data with "path" set to the URL's path, only when there is data |
| Crawling.StepRecords | arachnid/crawler/crawler.py:66-79 | the records one `crawl_next` step adds; no contract of its own: `Crawler.CrawlNext` is proved against it and `StepRecordsNetloc` states where they are filed |
| Crawling.StepLinks | arachnid/crawler/crawler.py:66-79 | the links one `crawl_next` step offers; no contract of its own: `Crawler.CrawlNext` is proved against it and `DocumentRecordOnce` states that a document offers none |
| Crawling.PageRecords | arachnid/crawler/crawler.py:81-114 | the records `_parse_page` adds; no contract of its own: `Crawler.ParsePage` is proved against it, and `ArtifactGating`, `ArtifactValues` and `PageRecordOnce` state what it holds |
| Crawling.PageLinks | arachnid/crawler/crawler.py:104-107 | the links `_parse_page` offers; no contract of its own: `ResolvePrefix`, `ResolveComplete` and `LinksCanonical` state what they are |
| Crawling.DocumentRecords | arachnid/crawler/crawler.py:116-121 | the records `_parse_document` adds; no contract of its own: `Crawler.ParseDocument` is proved against it and `DocumentRecordOnce` states what it holds |
| Crawling.ArtifactGating | arachnid/crawler/crawler.py:92-103 | the emails, phones, socials and custom-regex matches recorded are exactly the scraper's, in order, when their flag is set (regex: a non-empty pattern), and none otherwise; no page record is among them and all are under the page's netloc |
| Crawling.ArtifactValues | arachnid/crawler/crawler.py:92-103 | the values of one kind among a page's artifact records are those of the enabled loops of that kind |
| Crawling.ResolvePrefix | arachnid/crawler/crawler.py:105-107 | each resolved link is the crawl URL of the href at the same position, joined against the page URL |
| Crawling.ResolveComplete | arachnid/crawler/crawler.py:105-107 | resolution is complete exactly when every href resolved; otherwise it stopped at the first href that is not a URL |
| Crawling.LinksCanonical | arachnid/crawler/crawler.py:107 | the links a page offers have no fragment, are not from a wordlist, are spelled as their key and are well-formed |
| Crawling.PageRecordOnce | arachnid/crawler/crawler.py:109-114 | a parsed page adds at most one page record, exactly one when it has a title element and every link resolved; its path is the extension, `on_fuzz_list` is the URL's flag, `code` is the status, the title falls back to the last path segment, and the occurrence count is present exactly when a custom string is set |
| Crawling.StepRecordsNetloc | arachnid/crawler/crawler.py:90-121 | every record a step adds is filed under the dequeued URL's netloc |
| Crawling.DocumentRecordOnce | arachnid/crawler/crawler.py:116-121 | a non-HTML response adds one document record exactly when the extractor returns data, with "path" set to the URL's path, and no page record and no links |

## Left out

- The HTTP request (`requests.get` with its 30-second timeout) is a function parameter of `CrawlNext` that returns an abstract outcome; the network is not modelled.
- The `print` of the URL and the warning issued for a caught exception are output only and are not modelled.
- The scraper (regular expressions over HTML) is not modelled; its findings are an input `PageScrape`. The first and second `Scraper` built over the same text are assumed to agree.
- `url_functions.join_url`, `CrawlerURL.get_extension` and `responseparser.DocumentResponse.extract` are uninterpreted function inputs; `DomainData` is the log of `add_*` calls, and `DomainData.dumps` and `Crawler.dumps` are not modelled.
- The scheduler's own file is not part of this model. Its scope policy is an abstract `admits` function, and the fuzz-wordlist expansion done when it is built (and the fuzzing options passed at `arachnid/crawler/crawler.py:62-63`) is not modelled. `Path_Scheduler`'s base-URL argument is ignored.
- The URL parser's own file is not part of this model. Lower-casing of scheme and host and any public-suffix handling are not modelled; hosts are split on their two rightmost dots. A netloc without a dot is an error, and so is one with two or more dots whose subdomain is empty (".example.com"). Other empty labels are accepted: "https://.com" parses with an empty domain, and ".a.b.c" gives the subdomain ".a". A missing scheme or a missing "//" is an error.
- Ports and user information are not split off the netloc: in "https://www.example.com:8080" the tld is "com:8080", and two URLs that differ only in their port have different netlocs.
- CrawlUrls.Key: an empty path and "/" give different keys, so `https://a.com` and `https://a.com/` are two URLs to the scheduler. A URL class that read an empty path as "/" would give both one key; that class's file is not part of this model.
- Crawling.Crawler.constructor: requires that the seed parses; the source raises from `CrawlerURL` otherwise, and no crawler is built.
- `arachnid_enums` values are the datatypes `Agent` and `Delay`; only the values the presets use are modelled.
- Config.CrawlerConfig.SetLayoutOnly: `documents = {}` is an empty dict in the source and an empty set here; both are empty and falsy.
- The mutable default argument `config=CrawlerConfig()` shared across crawler instances is not modelled; the configuration is passed in explicitly.
- Robots.txt handling and the delay between requests are fields only; nothing in this core acts on them.
- The URL test cases of `tests.py` that compare hosts are proved as lemmas over every host of the same shape rather than over the literal strings.

## Findings

| source | as written | input that shows it | evidently intended | confidence | as-written member | corrected member |
|---|---|---|---|---|---|---|
| arachnid/crawler/crawler.py:38-39 | `set_stealth` assigns `paths_list_file_loc = None` twice and never touches `subs_list_file_loc` | a configuration with both wordlists set, then `set_stealth()`: the subdomain wordlist stays set | clear both wordlists, as `set_aggressive` does at lines 44-45 | medium, not executed | Config.StealthKeepsSubdomainList | Config.CorrectedStealthDropsBothLists |

=== FILE: config.dfy ===
/**
 * `CrawlerConfig`: the crawler's settings, an object whose preset methods overwrite some of its fields
 * and leave the rest as they were.
 */
module Config {
  import opened Wrappers

  /** The User-Agent header the crawler sends. */
  datatype Agent = Firefox | Google

  /** The pause between requests. */
  datatype Delay = NoDelay | LowDelay | HighDelay

  /** The document extensions the default configuration collects. */
  function DefaultDocuments(): set<string>
  {
    {"doc", "docx", "ppt", "pptx", "pps", "xls", "xlsx", "csv", "odt", "odp",
     "pdf", "txt", "zip", "rar", "dmg", "exe", "apk", "bin", "rpm", "dpkg"}
  }

  class CrawlerConfig {
    var scrapeLinks: bool
    var scrapeSubdomains: bool
    var scrapePhoneNumber: bool
    var scrapeEmail: bool
    var scrapeSocialMedia: bool
    var documents: set<string>
    var obeyRobots: bool
    var agent: Agent
    var customStr: Option<string>
    var customStrCaseSensitive: bool
    var customRegex: Option<string>
    var delay: Delay
    var pathsListFileLoc: Option<string>
    var subsListFileLoc: Option<string>

    /** Every field holds its default value. */
    ghost predicate IsDefault()
      reads this
    {
      && scrapeLinks && scrapeSubdomains && scrapePhoneNumber && scrapeEmail && scrapeSocialMedia
      && documents == DefaultDocuments() && obeyRobots && agent == Firefox
      && customStr == None && !customStrCaseSensitive && customRegex == None && delay == NoDelay
      && pathsListFileLoc == None && subsListFileLoc == None
    }

    /** A configuration starts out as the default one. */
    constructor ()
      ensures IsDefault()
    {
      new;
      SetDefault();
    }

    /** `set_default`: every field back to its default, whatever it held. */
    method SetDefault()
      modifies this
      ensures IsDefault()
    {
      scrapeLinks := true;
      scrapeSubdomains := true;
      scrapePhoneNumber := true;
      scrapeEmail := true;
      scrapeSocialMedia := true;
      obeyRobots := true;
      agent := Firefox;
      customStr := None;
      customStrCaseSensitive := false;
      customRegex := None;
      delay := NoDelay;
      pathsListFileLoc := None;
      subsListFileLoc := None;
      documents := DefaultDocuments();
    }

    /**
     * `set_stealth` as written: obey robots.txt, present as Google, wait long between requests, and drop
     * the path wordlist. The wordlist location is cleared twice, so the subdomain wordlist is kept.
     */
    method SetStealth()
      modifies this
      ensures obeyRobots && agent == Google && delay == HighDelay && pathsListFileLoc == None
      ensures subsListFileLoc == old(subsListFileLoc)
      ensures scrapeLinks == old(scrapeLinks) && scrapeSubdomains == old(scrapeSubdomains)
      ensures scrapePhoneNumber == old(scrapePhoneNumber) && scrapeEmail == old(scrapeEmail)
      ensures scrapeSocialMedia == old(scrapeSocialMedia) && documents == old(documents)
      ensures customStr == old(customStr) && customStrCaseSensitive == old(customStrCaseSensitive)
      ensures customRegex == old(customRegex)
    {
      obeyRobots := true;
      agent := Google;
      delay := HighDelay;
      pathsListFileLoc := None;
      pathsListFileLoc := None;
    }

    /** `set_stealth` as evidently intended: like `set_aggressive`, it drops both wordlists. */
    method SetStealthCorrected()
      modifies this
      ensures obeyRobots && agent == Google && delay == HighDelay
      ensures pathsListFileLoc == None && subsListFileLoc == None
      ensures scrapeLinks == old(scrapeLinks) && scrapeSubdomains == old(scrapeSubdomains)
      ensures scrapePhoneNumber == old(scrapePhoneNumber) && scrapeEmail == old(scrapeEmail)
      ensures scrapeSocialMedia == old(scrapeSocialMedia) && documents == old(documents)
      ensures customStr == old(customStr) && customStrCaseSensitive == old(customStrCaseSensitive)
      ensures customRegex == old(customRegex)
    {
      obeyRobots := true;
      agent := Google;
      delay := HighDelay;
      pathsListFileLoc := None;
      subsListFileLoc := None;
    }

    /** `set_aggressive`: ignore robots.txt, no delay, and no wordlists; the agent and scraping flags are kept. */
    method SetAggressive()
      modifies this
      ensures !obeyRobots && delay == NoDelay && pathsListFileLoc == None && subsListFileLoc == None
      ensures agent == old(agent)
      ensures scrapeLinks == old(scrapeLinks) && scrapeSubdomains == old(scrapeSubdomains)
      ensures scrapePhoneNumber == old(scrapePhoneNumber) && scrapeEmail == old(scrapeEmail)
      ensures scrapeSocialMedia == old(scrapeSocialMedia) && documents == old(documents)
      ensures customStr == old(customStr) && customStrCaseSensitive == old(customStrCaseSensitive)
      ensures customRegex == old(customRegex)
    {
      obeyRobots := false;
      delay := NoDelay;
      pathsListFileLoc := None;
      subsListFileLoc := None;
    }

    /**
     * `set_layout_only`: only the site's layout is collected. Subdomains, phone numbers, emails, social
     * media, documents, the custom string and the custom regex are all switched off; links stay as they were.
     */
    method SetLayoutOnly()
      modifies this
      ensures !scrapeSubdomains && !scrapePhoneNumber && !scrapeEmail && !scrapeSocialMedia
      ensures documents == {} && customStr == None && customRegex == None
      ensures scrapeLinks == old(scrapeLinks)
      ensures obeyRobots == old(obeyRobots) && agent == old(agent) && delay == old(delay)
      ensures customStrCaseSensitive == old(customStrCaseSensitive)
      ensures pathsListFileLoc == old(pathsListFileLoc) && subsListFileLoc == old(subsListFileLoc)
    {
      scrapeSubdomains := false;
      scrapePhoneNumber := false;
      scrapeEmail := false;
      scrapeSocialMedia := false;
      documents := {};
      customStr := None;
      customRegex := None;
    }
  }

  /** `set_stealth` as written keeps a subdomain wordlist that was set before. */
  method StealthKeepsSubdomainList() returns (subs: Option<string>, paths: Option<string>)
    ensures subs == Some("subdomains.txt") && paths == None
  {
    var config := new CrawlerConfig();
    config.pathsListFileLoc := Some("paths.txt");
    config.subsListFileLoc := Some("subdomains.txt");
    config.SetStealth();
    subs, paths := config.subsListFileLoc, config.pathsListFileLoc;
  }

  /** The corrected `set_stealth` drops both wordlists from the same starting point. */
  method CorrectedStealthDropsBothLists() returns (subs: Option<string>, paths: Option<string>)
    ensures subs == None && paths == None
  {
    var config := new CrawlerConfig();
    config.pathsListFileLoc := Some("paths.txt");
    config.subsListFileLoc := Some("subdomains.txt");
    config.SetStealthCorrected();
    subs, paths := config.subsListFileLoc, config.pathsListFileLoc;
  }

  /** A layout-only preset applied after the default one still follows links but collects nothing else. */
  method LayoutOnlyAfterDefault() returns (links: bool, emails: bool, phones: bool, socials: bool, documents: set<string>)
    ensures links && !emails && !phones && !socials && documents == {}
  {
    var config := new CrawlerConfig();
    config.SetLayoutOnly();
    links, emails, phones, socials, documents :=
      config.scrapeLinks, config.scrapeEmail, config.scrapePhoneNumber, config.scrapeSocialMedia, config.documents;
  }

  /** The aggressive preset after the stealth one ignores robots and has no delay, but keeps the Google agent. */
  method StealthThenAggressive() returns (robots: bool, agent: Agent, delay: Delay)
    ensures !robots && agent == Google && delay == NoDelay
  {
    var config := new CrawlerConfig();
    config.SetStealth();
    config.SetAggressive();
    robots, agent, delay := config.obeyRobots, config.agent, config.delay;
  }
}

=== FILE: crawl_urls.dfy ===
/**
 * `CrawlerURL`: a parsed URL as the crawler handles it, built with fragments disallowed, plus whether it
 * came from a fuzzing wordlist. Its key for de-duplication is the URL spelled without a fragment.
 */
module CrawlUrls {
  import opened Wrappers
  import opened Urls

  datatype CrawlUrl = CrawlUrl(parts: ParsedUrl, fuzzed: bool)

  /** The parts with the fragment dropped. */
  function WithoutFragment(p: ParsedUrl): ParsedUrl
  {
    p.(fragment := "")
  }

  /**
   * `CrawlerURL(s, allow_fragments=False)`: the parsed URL with its fragment split off and dropped, or why `s`
   * is not a URL. (`urlparse` itself, with fragments disallowed, would leave "#..." in the path or query; a
   * crawl URL is identified by its spelling without a fragment, so the fragment is dropped here.)
   */
  function FromString(s: string, fuzzed: bool): Result<CrawlUrl, UrlError>
  {
    match Parse(s)
    case Ok(p) => Ok(CrawlUrl(WithoutFragment(p), fuzzed))
    case Err(e) => Err(e)
  }

  /** `get_url`. */
  function GetUrl(c: CrawlUrl): string
  {
    Reconstruct(c.parts)
  }

  /** `get_netloc`. */
  function GetNetloc(c: CrawlUrl): string
  {
    Netloc(c.parts)
  }

  /** The identity used by the scheduler's seen-set: the URL spelled without its fragment. */
  function Key(c: CrawlUrl): string
  {
    Reconstruct(WithoutFragment(c.parts))
  }

  /** A crawl URL built from a string has no fragment, so its URL is its key, and that URL parses back into its parts. */
  lemma FromStringCanonical(s: string, fuzzed: bool)
    requires FromString(s, fuzzed).Ok?
    ensures var c := FromString(s, fuzzed).value;
      && c.parts.fragment == "" && GetUrl(c) == Key(c)
      && WellFormed(c.parts) && Parse(GetUrl(c)) == Ok(c.parts)
  {
    ParseWellFormed(s);
    var c := FromString(s, fuzzed).value;
    ParseReconstruct(c.parts);
  }

  /**
   * For well-formed parts the key identifies the URL up to its fragment: two crawl URLs share a key exactly
   * when all their parts but the fragment agree.
   */
  lemma KeyIdentifies(a: CrawlUrl, b: CrawlUrl)
    requires WellFormed(a.parts) && WellFormed(b.parts)
    ensures Key(a) == Key(b) <==> WithoutFragment(a.parts) == WithoutFragment(b.parts)
  {
    if Key(a) == Key(b) {
      ParseReconstruct(WithoutFragment(a.parts));
      ParseReconstruct(WithoutFragment(b.parts));
    }
  }
}

=== FILE: crawler.dfy ===
/**
 * One step of the crawl loop: take the next URL off the schedule, fetch it, and either scrape the page
 * (artifacts gated by the configuration, links fed back into the schedule, one page record) or hand the
 * response to the document extractor. The fetch, the scraper's findings, `join_url`, `get_extension` and
 * the document extractor are inputs; what the step does with them is modelled.
 */
module Crawling {
  import opened Wrappers
  import opened Strings
  import opened Urls
  import opened CrawlUrls
  import opened Scheduling
  import opened Config

  /** The artifact collections of `DomainData`. */
  datatype ArtifactKind = Email | Phone | Social | CustomRegex

  /** The `page_info` record of a scraped page. */
  datatype PageInfo = PageInfo(path: string, title: string, customStringOccurrences: Option<nat>, onFuzzList: bool, code: int)

  /** One call of `DomainData.add_*`, with the netloc it files the value under. */
  datatype Record =
    | Artifact(kind: ArtifactKind, netloc: string, value: string)
    | Page(netloc: string, info: PageInfo)
    | Document(netloc: string, data: map<string, string>)

  /** The page's `<title>` element: absent, or present with its text ("" when it has none). */
  datatype TitleTag = NoTitleTag | TitleTag(text: string)

  /**
   * What the scraper finds in a page: the regex matches depend on the configured pattern and the
   * occurrence count on the configured string and case sensitivity.
   */
  datatype PageScrape = PageScrape(
    emails: seq<string>, phones: seq<string>, socials: seq<string>,
    regexMatches: string -> seq<string>, hrefs: seq<string>, title: TitleTag,
    occurrences: (string, bool) -> nat)

  /**
   * What `requests.get` gives: a failure (it raised), or a response with its status, its content-type
   * header if it has one, what the scraper finds in its body, and what the document extractor gives for
   * each set of accepted extensions.
   */
  datatype FetchOutcome =
    | FetchFailed
    | Fetched(status: int, contentType: Option<string>, page: PageScrape, extract: set<string> -> map<string, string>)

  /** Python truthiness of an optional string: set and non-empty. */
  predicate IsSet(s: Option<string>)
  {
    s.Some? && s.value != ""
  }

  /** One record per value, in order, all of one kind and under one netloc. */
  function Artifacts(kind: ArtifactKind, netloc: string, values: seq<string>): seq<Record>
  {
    if values == [] then []
    else Artifacts(kind, netloc, values[..|values| - 1]) + [Artifact(kind, netloc, values[|values| - 1])]
  }

  /** The artifact records of a page, each collection only when the configuration asks for it. */
  function ArtifactRecords(config: CrawlerConfig, netloc: string, page: PageScrape): seq<Record>
    reads config
  {
    (if config.scrapeEmail then Artifacts(Email, netloc, page.emails) else [])
    + (if config.scrapePhoneNumber then Artifacts(Phone, netloc, page.phones) else [])
    + (if config.scrapeSocialMedia then Artifacts(Social, netloc, page.socials) else [])
    + (if IsSet(config.customRegex) then Artifacts(CustomRegex, netloc, page.regexMatches(config.customRegex.value)) else [])
  }

  /**
   * What an href on the page at `base` leads to: the crawl URL of its join against `base`, built with
   * fragments disallowed, or why that join is not a URL.
   */
  function LinkFrom(base: string, join: (string, string) -> string): string -> Result<CrawlUrl, UrlError>
  {
    href => FromString(join(base, href), false)
  }

  /**
   * The crawl URLs the hrefs lead to, in order, up to the first one that is not a URL (building it raises,
   * which ends the page), and whether every href gave one.
   */
  function Resolve(hrefs: seq<string>, link: string -> Result<CrawlUrl, UrlError>): (seq<CrawlUrl>, bool)
  {
    if hrefs == [] then ([], true)
    else
      var (init, complete) := Resolve(hrefs[..|hrefs| - 1], link);
      if !complete then (init, false)
      else
        match link(hrefs[|hrefs| - 1])
        case Err(_) => (init, false)
        case Ok(c) => (init + [c], true)
  }

  /** `path.split("/")[-1]`: what follows the last '/', or the whole path when it has none. */
  function LastSegment(path: string): string
  {
    path[LastIndexOf(path, '/') + 1..]
  }

  /** The page record, or None when the page has no title element (reading its text raises). */
  function PageRecord(config: CrawlerConfig, c: CrawlUrl, path: string, status: int, page: PageScrape): Option<Record>
    reads config
  {
    match page.title
    case NoTitleTag => None
    case TitleTag(text) =>
      var title := if text != "" then text else LastSegment(c.parts.path);
      var occurrences :=
        if IsSet(config.customStr) then Some(page.occurrences(config.customStr.value, config.customStrCaseSensitive)) else None;
      Some(Page(GetNetloc(c), PageInfo(path, title, occurrences, c.fuzzed, status)))
  }

  /** The URLs `_parse_page` offers to the schedule: none unless links are scraped. */
  function PageLinks(config: CrawlerConfig, c: CrawlUrl, page: PageScrape, join: (string, string) -> string): seq<CrawlUrl>
    reads config
  {
    if config.scrapeLinks then Resolve(page.hrefs, LinkFrom(GetUrl(c), join)).0 else []
  }

  /** The records `_parse_page` adds: the artifacts, then the page record unless a link or the title raised. */
  function PageRecords(config: CrawlerConfig, c: CrawlUrl, path: string, status: int, page: PageScrape,
                       join: (string, string) -> string): seq<Record>
    reads config
  {
    var linksDone := !config.scrapeLinks || Resolve(page.hrefs, LinkFrom(GetUrl(c), join)).1;
    var record := PageRecord(config, c, path, status, page);
    ArtifactRecords(config, GetNetloc(c), page) + (if linksDone && record.Some? then [record.value] else [])
  }

  /** The records `_parse_document` adds: the extracted data with the URL's path under "path", if any data. */
  function DocumentRecords(config: CrawlerConfig, c: CrawlUrl, extract: set<string> -> map<string, string>): seq<Record>
    reads config
  {
    var data := extract(config.documents);
    if |data| == 0 then [] else [Document(GetNetloc(c), data["path" := c.parts.path])]
  }

  /** Whether a response goes to `_parse_page`: it has a content-type that contains "text/html". */
  predicate IsHtml(contentType: string)
  {
    Contains(contentType, "text/html")
  }

  /**
   * What a step adds for the dequeued URL `c` given the fetch's outcome: the records, and the URLs offered
   * to the schedule. A failed fetch or a response without a content-type header adds nothing.
   */
  function StepRecords(config: CrawlerConfig, c: CrawlUrl, path: string, outcome: FetchOutcome,
                       join: (string, string) -> string): seq<Record>
    reads config
  {
    match outcome
    case FetchFailed => []
    case Fetched(status, contentType, page, extract) =>
      if contentType.None? then []
      else if IsHtml(contentType.value) then PageRecords(config, c, path, status, page, join)
      else DocumentRecords(config, c, extract)
  }

  function StepLinks(config: CrawlerConfig, c: CrawlUrl, outcome: FetchOutcome, join: (string, string) -> string): seq<CrawlUrl>
    reads config
  {
    match outcome
    case FetchFailed => []
    case Fetched(_, contentType, page, _) =>
      if contentType.Some? && IsHtml(contentType.value) then PageLinks(config, c, page, join) else []
  }

  class Crawler {
    const config: CrawlerConfig
    const schedule: Scheduler<CrawlUrl>
    /** `url_functions.join_url`. */
    const join: (string, string) -> string
    /** `CrawlerURL.get_extension`. */
    const extension: CrawlUrl -> string
    /** The netloc the output is filed under (`DomainData(seed.get_netloc())`). */
    const origin: string
    /** The calls made on the output, oldest first. */
    var output: seq<Record>

    ghost predicate Valid()
      reads this, schedule
    {
      schedule.Valid()
    }

    /**
     * A crawler for `seed` (taken without its fragment): the seed is the one URL queued and seen, and
     * nothing has been recorded.
     */
    constructor (seed: string, config: CrawlerConfig, scope: CrawlUrl -> bool, join: (string, string) -> string,
                 extension: CrawlUrl -> string)
      requires FromString(seed, false).Ok?
      ensures Valid() && fresh(schedule)
      ensures this.config == config && this.join == join && this.extension == extension
      ensures schedule.key == Key && schedule.admits == scope
      ensures schedule.queue == [FromString(seed, false).value] && schedule.seen == {Key(FromString(seed, false).value)}
      ensures origin == GetNetloc(FromString(seed, false).value) && output == []
    {
      var c := FromString(seed, false).value;
      this.config := config;
      this.join := join;
      this.extension := extension;
      origin := GetNetloc(c);
      output := [];
      schedule := new Scheduler.Seeded(Key, scope, c);
    }

    /** Adds one record per value, in order (the `for … in scraper.find_all_…` loops). */
    method AddArtifacts(kind: ArtifactKind, netloc: string, values: seq<string>)
      modifies this`output
      ensures output == old(output) + Artifacts(kind, netloc, values)
    {
      var i := 0;
      while i < |values|
        invariant 0 <= i <= |values|
        invariant output == old(output) + Artifacts(kind, netloc, values[..i])
      {
        assert values[..i + 1][..i] == values[..i];
        output := output + [Artifact(kind, netloc, values[i])];
        i := i + 1;
      }
      assert values[..i] == values;
    }

    /**
     * Joins each href against the page URL and offers the result to the schedule, in href order, stopping
     * at the first joined string that is not a URL; says whether it got through them all.
     */
    method ScheduleLinks(c: CrawlUrl, hrefs: seq<string>) returns (complete: bool)
      requires Valid()
      modifies schedule
      ensures Valid()
      ensures complete == Resolve(hrefs, LinkFrom(GetUrl(c), join)).1
      ensures schedule.queue == old(schedule.queue) + Accepted(schedule.key, schedule.admits, old(schedule.seen), Resolve(hrefs, LinkFrom(GetUrl(c), join)).0)
      ensures schedule.seen == old(schedule.seen) + KeySet(schedule.key, Accepted(schedule.key, schedule.admits, old(schedule.seen), Resolve(hrefs, LinkFrom(GetUrl(c), join)).0))
    {
      var link := LinkFrom(GetUrl(c), join);
      var i := 0;
      complete := true;
      while i < |hrefs| && complete
        invariant 0 <= i <= |hrefs| && Valid()
        invariant complete == Resolve(hrefs[..i], link).1
        invariant schedule.queue == old(schedule.queue) + Accepted(schedule.key, schedule.admits, old(schedule.seen), Resolve(hrefs[..i], link).0)
        invariant schedule.seen == old(schedule.seen) + KeySet(schedule.key, Accepted(schedule.key, schedule.admits, old(schedule.seen), Resolve(hrefs[..i], link).0))
      {
        ResolveExtend(hrefs, link, i);
        var resolved := link(hrefs[i]);
        if resolved.Ok? {
          ghost var queue, seen := schedule.queue, schedule.seen;
          var added := schedule.Offer(resolved.value);
          OfferStep(schedule.key, schedule.admits, old(schedule.queue), old(schedule.seen), Resolve(hrefs[..i], link).0,
                    resolved.value, queue, seen, added);
        } else {
          complete := false;
        }
        i := i + 1;
      }
      if complete {
        assert hrefs[..i] == hrefs;
      } else {
        ResolveStops(hrefs, link, i);
      }
    }

    /** The gated artifact loops of `_parse_page`: emails, phones, social media, then custom-regex matches. */
    method AddPageArtifacts(netloc: string, page: PageScrape)
      modifies this`output
      ensures output == old(output) + ArtifactRecords(config, netloc, page)
    {
      ghost var emails := if config.scrapeEmail then Artifacts(Email, netloc, page.emails) else [];
      ghost var phones := if config.scrapePhoneNumber then Artifacts(Phone, netloc, page.phones) else [];
      ghost var socials := if config.scrapeSocialMedia then Artifacts(Social, netloc, page.socials) else [];
      ghost var matches :=
        if IsSet(config.customRegex) then Artifacts(CustomRegex, netloc, page.regexMatches(config.customRegex.value)) else [];
      if config.scrapeEmail {
        AddArtifacts(Email, netloc, page.emails);
      }
      assert output == old(output) + emails;
      if config.scrapePhoneNumber {
        AddArtifacts(Phone, netloc, page.phones);
      }
      assert output == old(output) + emails + phones;
      if config.scrapeSocialMedia {
        AddArtifacts(Social, netloc, page.socials);
      }
      assert output == old(output) + emails + phones + socials;
      if IsSet(config.customRegex) {
        AddArtifacts(CustomRegex, netloc, page.regexMatches(config.customRegex.value));
      }
      assert output == old(output) + emails + phones + socials + matches;
      assert emails + phones + socials + matches == ArtifactRecords(config, netloc, page);
      AppendAssoc4(old(output), emails, phones, socials, matches);
    }

    /** `_parse_page`: the gated artifacts, the links when enabled, then the page record. */
    method ParsePage(c: CrawlUrl, status: int, page: PageScrape)
      requires Valid()
      modifies this`output, schedule
      ensures Valid()
      ensures output == old(output) + PageRecords(config, c, extension(c), status, page, join)
      ensures schedule.queue == old(schedule.queue) + Accepted(schedule.key, schedule.admits, old(schedule.seen), PageLinks(config, c, page, join))
      ensures schedule.seen == old(schedule.seen) + KeySet(schedule.key, Accepted(schedule.key, schedule.admits, old(schedule.seen), PageLinks(config, c, page, join)))
    {
      AddPageArtifacts(GetNetloc(c), page);
      var linksDone := true;
      if config.scrapeLinks {
        linksDone := ScheduleLinks(c, page.hrefs);
      }
      var record := PageRecord(config, c, extension(c), status, page);
      if linksDone && record.Some? {
        output := output + [record.value];
      }
    }

    /** `_parse_document`: records the extracted data, with the URL's path under "path", when there is any. */
    method ParseDocument(c: CrawlUrl, extract: set<string> -> map<string, string>)
      modifies this`output
      ensures output == old(output) + DocumentRecords(config, c, extract)
    {
      var data := extract(config.documents);
      if |data| != 0 {
        data := data["path" := c.parts.path];
        output := output + [Document(GetNetloc(c), data)];
      }
    }

    /**
     * `crawl_next`: False, with nothing changed, when the schedule is empty. Otherwise the head of the
     * queue is taken off for good, fetched with the configured agent, routed by content type, and True is
     * returned whatever the fetch or the parsing raised.
     */
    method CrawlNext(fetch: (string, Agent) -> FetchOutcome) returns (more: bool)
      requires Valid()
      modifies this`output, schedule
      ensures Valid()
      ensures more <==> old(schedule.queue) != []
      ensures !more ==> output == old(output) && schedule.queue == old(schedule.queue) && schedule.seen == old(schedule.seen)
      ensures more ==>
        var c := old(schedule.queue)[0];
        var outcome := fetch(GetUrl(c), config.agent);
        var links := Accepted(schedule.key, schedule.admits, old(schedule.seen), StepLinks(config, c, outcome, join));
        && output == old(output) + StepRecords(config, c, extension(c), outcome, join)
        && schedule.queue == old(schedule.queue)[1..] + links
        && schedule.seen == old(schedule.seen) + KeySet(schedule.key, links)
        && schedule.key(c) in schedule.seen
    {
      var next := schedule.Next();
      if next.None? {
        return false;
      }
      var c := next.value;
      var outcome := fetch(GetUrl(c), config.agent);
      if outcome.Fetched? && outcome.contentType.Some? {
        if IsHtml(outcome.contentType.value) {
          ParsePage(c, outcome.status, outcome.page);
        } else {
          ParseDocument(c, outcome.extract);
        }
      }
      more := true;
    }
  }

  /** Resolving one more href: it is appended when it is a URL, and the resolution stops otherwise. */
  lemma ResolveExtend(hrefs: seq<string>, link: string -> Result<CrawlUrl, UrlError>, i: nat)
    requires i < |hrefs| && Resolve(hrefs[..i], link).1
    ensures var next := link(hrefs[i]);
      Resolve(hrefs[..i + 1], link) ==
        if next.Ok? then (Resolve(hrefs[..i], link).0 + [next.value], true) else (Resolve(hrefs[..i], link).0, false)
  {
    assert hrefs[..i + 1][..i] == hrefs[..i];
  }

  // ---------------------------------------------------------------------------------------------
  // What a step records

  /** The values of the artifact records of one kind, in order. */
  function ValuesOf(records: seq<Record>, kind: ArtifactKind): seq<string>
  {
    if records == [] then []
    else
      var last := records[|records| - 1];
      ValuesOf(records[..|records| - 1], kind) + (if last.Artifact? && last.kind == kind then [last.value] else [])
  }

  /** The page records, in order. */
  function Pages(records: seq<Record>): seq<PageInfo>
  {
    if records == [] then []
    else
      var last := records[|records| - 1];
      Pages(records[..|records| - 1]) + (if last.Page? then [last.info] else [])
  }

  lemma {:induction false} ValuesOfAppend(a: seq<Record>, b: seq<Record>, kind: ArtifactKind)
    ensures ValuesOf(a + b, kind) == ValuesOf(a, kind) + ValuesOf(b, kind)
  {
    if b == [] {
      assert a + b == a;
    } else {
      assert (a + b)[..|a + b| - 1] == a + b[..|b| - 1];
      ValuesOfAppend(a, b[..|b| - 1], kind);
    }
  }

  lemma {:induction false} PagesAppend(a: seq<Record>, b: seq<Record>)
    ensures Pages(a + b) == Pages(a) + Pages(b)
  {
    if b == [] {
      assert a + b == a;
    } else {
      assert (a + b)[..|a + b| - 1] == a + b[..|b| - 1];
      PagesAppend(a, b[..|b| - 1]);
    }
  }

  /** The records of one artifact loop carry exactly its values, under its kind. */
  lemma {:induction false} ArtifactsValues(kind: ArtifactKind, netloc: string, values: seq<string>, k: ArtifactKind)
    ensures ValuesOf(Artifacts(kind, netloc, values), k) == if k == kind then values else []
  {
    if values != [] {
      var init := values[..|values| - 1];
      var recs := Artifacts(kind, netloc, values);
      ArtifactsValues(kind, netloc, init, k);
      assert recs[..|recs| - 1] == Artifacts(kind, netloc, init);
      assert values == init + [values[|values| - 1]];
    }
  }

  /** The records of one artifact loop hold no page, and all are filed under its netloc. */
  lemma {:induction false} ArtifactsOnly(kind: ArtifactKind, netloc: string, values: seq<string>)
    ensures Pages(Artifacts(kind, netloc, values)) == []
    ensures forall r :: r in Artifacts(kind, netloc, values) ==> r.Artifact? && r.netloc == netloc
  {
    if values != [] {
      var recs := Artifacts(kind, netloc, values);
      ArtifactsOnly(kind, netloc, values[..|values| - 1]);
      assert recs[..|recs| - 1] == Artifacts(kind, netloc, values[..|values| - 1]);
    }
  }

  /** An artifact loop behind a configuration flag: its values when the flag is on, nothing otherwise. */
  lemma GatedArtifacts(on: bool, kind: ArtifactKind, netloc: string, values: seq<string>, k: ArtifactKind)
    ensures ValuesOf(if on then Artifacts(kind, netloc, values) else [], k) == if on && k == kind then values else []
    ensures Pages(if on then Artifacts(kind, netloc, values) else []) == []
    ensures forall r :: r in (if on then Artifacts(kind, netloc, values) else []) ==> r.netloc == netloc
  {
    ArtifactsValues(kind, netloc, values, k);
    ArtifactsOnly(kind, netloc, values);
  }

  /** The values of one kind among the artifact records of a page. */
  lemma ArtifactValues(config: CrawlerConfig, netloc: string, page: PageScrape, k: ArtifactKind)
    ensures ValuesOf(ArtifactRecords(config, netloc, page), k) ==
      (if config.scrapeEmail && k == Email then page.emails else [])
      + (if config.scrapePhoneNumber && k == Phone then page.phones else [])
      + (if config.scrapeSocialMedia && k == Social then page.socials else [])
      + (if IsSet(config.customRegex) && k == CustomRegex then page.regexMatches(config.customRegex.value) else [])
  {
    var emails := if config.scrapeEmail then Artifacts(Email, netloc, page.emails) else [];
    var phones := if config.scrapePhoneNumber then Artifacts(Phone, netloc, page.phones) else [];
    var socials := if config.scrapeSocialMedia then Artifacts(Social, netloc, page.socials) else [];
    var regex := if IsSet(config.customRegex) then config.customRegex.value else "";
    var matches := if IsSet(config.customRegex) then Artifacts(CustomRegex, netloc, page.regexMatches(regex)) else [];
    GatedArtifacts(config.scrapeEmail, Email, netloc, page.emails, k);
    GatedArtifacts(config.scrapePhoneNumber, Phone, netloc, page.phones, k);
    GatedArtifacts(config.scrapeSocialMedia, Social, netloc, page.socials, k);
    GatedArtifacts(IsSet(config.customRegex), CustomRegex, netloc, page.regexMatches(regex), k);
    ValuesOfAppend4(emails, phones, socials, matches, k);
  }

  /**
   * Each kind of artifact is recorded exactly when the configuration enables it, and then every value the
   * scraper found is recorded, in order: emails, phone numbers and social media on their flags, custom-regex
   * matches when a non-empty pattern is set. No page record is among them, and all are filed under `netloc`.
   */
  lemma ArtifactGating(config: CrawlerConfig, netloc: string, page: PageScrape)
    ensures ValuesOf(ArtifactRecords(config, netloc, page), Email) == if config.scrapeEmail then page.emails else []
    ensures ValuesOf(ArtifactRecords(config, netloc, page), Phone) == if config.scrapePhoneNumber then page.phones else []
    ensures ValuesOf(ArtifactRecords(config, netloc, page), Social) == if config.scrapeSocialMedia then page.socials else []
    ensures ValuesOf(ArtifactRecords(config, netloc, page), CustomRegex) ==
      if IsSet(config.customRegex) then page.regexMatches(config.customRegex.value) else []
    ensures Pages(ArtifactRecords(config, netloc, page)) == []
    ensures forall r :: r in ArtifactRecords(config, netloc, page) ==> r.netloc == netloc
  {
    ArtifactValues(config, netloc, page, Email);
    ArtifactValues(config, netloc, page, Phone);
    ArtifactValues(config, netloc, page, Social);
    ArtifactValues(config, netloc, page, CustomRegex);
    var emails := if config.scrapeEmail then Artifacts(Email, netloc, page.emails) else [];
    var phones := if config.scrapePhoneNumber then Artifacts(Phone, netloc, page.phones) else [];
    var socials := if config.scrapeSocialMedia then Artifacts(Social, netloc, page.socials) else [];
    var regex := if IsSet(config.customRegex) then config.customRegex.value else "";
    var matches := if IsSet(config.customRegex) then Artifacts(CustomRegex, netloc, page.regexMatches(regex)) else [];
    GatedArtifacts(config.scrapeEmail, Email, netloc, page.emails, Email);
    GatedArtifacts(config.scrapePhoneNumber, Phone, netloc, page.phones, Email);
    GatedArtifacts(config.scrapeSocialMedia, Social, netloc, page.socials, Email);
    GatedArtifacts(IsSet(config.customRegex), CustomRegex, netloc, page.regexMatches(regex), Email);
    PagesAppend(emails, phones);
    PagesAppend(emails + phones, socials);
    PagesAppend(emails + phones + socials, matches);
  }

  lemma ValuesOfAppend4(a: seq<Record>, b: seq<Record>, c: seq<Record>, d: seq<Record>, kind: ArtifactKind)
    ensures ValuesOf(a + b + c + d, kind) == ValuesOf(a, kind) + ValuesOf(b, kind) + ValuesOf(c, kind) + ValuesOf(d, kind)
  {
    ValuesOfAppend(a, b, kind);
    ValuesOfAppend(a + b, c, kind);
    ValuesOfAppend(a + b + c, d, kind);
  }

  /** The hrefs resolve, in order, into the crawl URLs they lead to. */
  lemma {:induction false} ResolvePrefix(hrefs: seq<string>, link: string -> Result<CrawlUrl, UrlError>)
    ensures |Resolve(hrefs, link).0| <= |hrefs|
    ensures forall i :: 0 <= i < |Resolve(hrefs, link).0| ==>
      link(hrefs[i]) == Ok(Resolve(hrefs, link).0[i])
  {
    if hrefs != [] {
      var init := hrefs[..|hrefs| - 1];
      ResolvePrefix(init, link);
      var before := Resolve(init, link).0;
      var urls := Resolve(hrefs, link).0;
      forall i | 0 <= i < |before| ensures link(hrefs[i]) == Ok(urls[i]) {
        assert hrefs[i] == init[i] && urls[i] == before[i];
      }
      if urls != before {
        var last := link(hrefs[|hrefs| - 1]);
        assert Resolve(init, link).1 && last.Ok? && urls == before + [last.value];
        ResolveComplete(init, link);
        assert |before| == |hrefs| - 1 && |urls| == |before| + 1;
        assert link(hrefs[|before|]) == Ok(urls[|before|]);
      } else {
        assert |urls| == |before|;
      }
    }
  }

  /**
   * The links a page offers to the schedule are crawl URLs without fragment and off every wordlist, each
   * spelled as its own key and parsing back into its parts.
   */
  lemma LinksCanonical(config: CrawlerConfig, c: CrawlUrl, page: PageScrape, join: (string, string) -> string)
    ensures forall u :: u in PageLinks(config, c, page, join) ==>
      u.parts.fragment == "" && !u.fuzzed && GetUrl(u) == Key(u) && WellFormed(u.parts)
  {
    var link := LinkFrom(GetUrl(c), join);
    var urls := Resolve(page.hrefs, link).0;
    ResolvePrefix(page.hrefs, link);
    forall u | u in urls ensures u.parts.fragment == "" && !u.fuzzed && GetUrl(u) == Key(u) && WellFormed(u.parts) {
      var i :| 0 <= i < |urls| && urls[i] == u;
      assert link(page.hrefs[i]) == Ok(u);
      FromStringCanonical(join(GetUrl(c), page.hrefs[i]), false);
    }
  }

  /**
   * The resolution is complete exactly when every href resolved; otherwise it stopped at the first href
   * that does not lead to a URL.
   */
  lemma {:induction false} ResolveComplete(hrefs: seq<string>, link: string -> Result<CrawlUrl, UrlError>)
    ensures Resolve(hrefs, link).1 <==> |Resolve(hrefs, link).0| == |hrefs|
    ensures !Resolve(hrefs, link).1 ==>
      |Resolve(hrefs, link).0| < |hrefs| && link(hrefs[|Resolve(hrefs, link).0|]).Err?
  {
    if hrefs != [] {
      var init := hrefs[..|hrefs| - 1];
      ResolveComplete(init, link);
      ResolveLength(init, link);
      var before := Resolve(init, link);
      if !before.1 {
        assert hrefs[|before.0|] == init[|before.0|];
      }
    }
  }

  /** No more URLs than hrefs. */
  lemma {:induction false} ResolveLength(hrefs: seq<string>, link: string -> Result<CrawlUrl, UrlError>)
    ensures |Resolve(hrefs, link).0| <= |hrefs|
  {
    if hrefs != [] {
      ResolveLength(hrefs[..|hrefs| - 1], link);
    }
  }

  /**
   * A parsed page yields exactly one page record, unless its title element is missing or a link failed to
   * resolve. The record carries the URL's extension, the title (the last path segment when the title is
   * empty), the custom-string count only when a non-empty custom string is set, whether the URL came from
   * a wordlist, and the response status.
   */
  lemma PageRecordOnce(config: CrawlerConfig, c: CrawlUrl, path: string, status: int, page: PageScrape,
                       join: (string, string) -> string)
    ensures var pages := Pages(PageRecords(config, c, path, status, page, join));
      && |pages| <= 1
      && (|pages| == 1 <==> page.title.TitleTag? && (!config.scrapeLinks || Resolve(page.hrefs, LinkFrom(GetUrl(c), join)).1))
      && (|pages| == 1 ==>
            && pages[0].path == path && pages[0].onFuzzList == c.fuzzed && pages[0].code == status
            && pages[0].title == (if page.title.text != "" then page.title.text else LastSegment(c.parts.path))
            && (pages[0].customStringOccurrences.Some? <==> IsSet(config.customStr)))
  {
    var linksDone := !config.scrapeLinks || Resolve(page.hrefs, LinkFrom(GetUrl(c), join)).1;
    var record := PageRecord(config, c, path, status, page);
    var tail := if linksDone && record.Some? then [record.value] else [];
    ArtifactGating(config, GetNetloc(c), page);
    PagesAppend(ArtifactRecords(config, GetNetloc(c), page), tail);
    if tail != [] {
      assert tail[..0] == [];
    }
  }

  /** Every record a step adds is filed under the dequeued URL's netloc. */
  lemma StepRecordsNetloc(config: CrawlerConfig, c: CrawlUrl, path: string, outcome: FetchOutcome,
                          join: (string, string) -> string)
    ensures forall r :: r in StepRecords(config, c, path, outcome, join) ==> r.netloc == GetNetloc(c)
  {
    if outcome.Fetched? && outcome.contentType.Some? && IsHtml(outcome.contentType.value) {
      ArtifactGating(config, GetNetloc(c), outcome.page);
    }
  }

  /**
   * A step adds at most one document record, exactly when the response is not HTML and the extractor
   * returns data; the record is that data with "path" set to the URL's path, under the URL's netloc.
   */
  lemma DocumentRecordOnce(config: CrawlerConfig, c: CrawlUrl, path: string, outcome: FetchOutcome,
                           join: (string, string) -> string)
    requires outcome.Fetched? && outcome.contentType.Some? && !IsHtml(outcome.contentType.value)
    ensures var records := StepRecords(config, c, path, outcome, join);
      var data := outcome.extract(config.documents);
      && (records != [] <==> |data| != 0)
      && (records != [] ==> records == [Document(GetNetloc(c), data["path" := c.parts.path])])
      && Pages(records) == [] && StepLinks(config, c, outcome, join) == []
  {
    var records := StepRecords(config, c, path, outcome, join);
    if records != [] {
      assert records[..0] == [];
    }
  }

  lemma AppendAssoc4<T>(a: seq<T>, b: seq<T>, c: seq<T>, d: seq<T>, e: seq<T>)
    ensures a + b + c + d + e == a + (b + c + d + e)
  {
  }

  /** Once an href fails to resolve, the hrefs after it change nothing. */
  lemma {:induction false} ResolveStops(hrefs: seq<string>, link: string -> Result<CrawlUrl, UrlError>, n: nat)
    requires n <= |hrefs| && !Resolve(hrefs[..n], link).1
    ensures Resolve(hrefs, link) == Resolve(hrefs[..n], link)
    decreases |hrefs| - n
  {
    if n < |hrefs| {
      assert hrefs[..n + 1][..n] == hrefs[..n];
      ResolveStops(hrefs, link, n + 1);
    } else {
      assert hrefs[..n] == hrefs;
    }
  }
}

=== FILE: scheduler.dfy ===
/**
 * The crawl frontier: a FIFO queue of items still to visit and a set of the keys of every item ever
 * queued. An item is queued only when its key is new and the scope policy admits it, and taking an item
 * off the queue leaves its key in the seen-set, so no key is handed out twice over the scheduler's life.
 * The tests' `Path_Scheduler` is this with paths as items and the path itself as key; the crawler's
 * scheduler is this with crawl URLs as items and the URL without fragment as key.
 */
module Scheduling {
  import opened Wrappers

  /** The keys of `xs`. */
  function KeySet<T>(key: T -> string, xs: seq<T>): set<string>
  {
    if xs == [] then {} else KeySet(key, xs[..|xs| - 1]) + {key(xs[|xs| - 1])}
  }

  /** No two items of `xs` share a key: each item's key is not among those of the items before it. */
  predicate DistinctKeys<T>(key: T -> string, xs: seq<T>)
  {
    xs == [] || (DistinctKeys(key, xs[..|xs| - 1]) && key(xs[|xs| - 1]) !in KeySet(key, xs[..|xs| - 1]))
  }

  /**
   * The items of `xs` that offering them one by one, in order, to a scheduler whose seen-set is `seen`
   * would queue: those the policy admits whose key is neither in `seen` nor the key of an earlier one queued.
   */
  function Accepted<T>(key: T -> string, admits: T -> bool, seen: set<string>, xs: seq<T>): seq<T>
  {
    if xs == [] then []
    else
      var before := Accepted(key, admits, seen, xs[..|xs| - 1]);
      var x := xs[|xs| - 1];
      if admits(x) && key(x) !in seen + KeySet(key, before) then before + [x] else before
  }

  /** One more offer after a batch: the item is queued exactly when admitted and its key is new. */
  lemma AcceptedExtend<T>(key: T -> string, admits: T -> bool, seen: set<string>, xs: seq<T>, x: T)
    ensures var before := Accepted(key, admits, seen, xs);
      Accepted(key, admits, seen, xs + [x]) ==
        if admits(x) && key(x) !in seen + KeySet(key, before) then before + [x] else before
  {
    assert (xs + [x])[..|xs|] == xs;
  }

  /** The key set grows by one key per item. */
  lemma KeySetExtend<T>(key: T -> string, xs: seq<T>, x: T)
    ensures KeySet(key, xs + [x]) == KeySet(key, xs) + {key(x)}
  {
    assert (xs + [x])[..|xs|] == xs;
  }

  /**
   * A scheduler that holds a batch's accepted items after `queue0` and their keys beside `seen0`, offered one
   * more item, holds the accepted items of the longer batch.
   */
  lemma OfferStep<T>(key: T -> string, admits: T -> bool, queue0: seq<T>, seen0: set<string>, xs: seq<T>, x: T,
                     queue: seq<T>, seen: set<string>, added: bool)
    requires queue == queue0 + Accepted(key, admits, seen0, xs)
    requires seen == seen0 + KeySet(key, Accepted(key, admits, seen0, xs))
    requires added <==> admits(x) && key(x) !in seen
    ensures (if added then queue + [x] else queue) == queue0 + Accepted(key, admits, seen0, xs + [x])
    ensures (if added then seen + {key(x)} else seen) == seen0 + KeySet(key, Accepted(key, admits, seen0, xs + [x]))
  {
    AcceptedExtend(key, admits, seen0, xs, x);
    KeySetExtend(key, Accepted(key, admits, seen0, xs), x);
  }

  /** A key belongs to the key set exactly when some item carries it. */
  lemma {:induction false} KeySetMembers<T>(key: T -> string, xs: seq<T>, k: string)
    ensures k in KeySet(key, xs) <==> exists i :: 0 <= i < |xs| && key(xs[i]) == k
  {
    if xs != [] {
      var init := xs[..|xs| - 1];
      KeySetMembers(key, init, k);
      if k in KeySet(key, init) {
        var i :| 0 <= i < |init| && key(init[i]) == k;
        assert key(xs[i]) == k;
      }
      if exists i :: 0 <= i < |xs| && key(xs[i]) == k {
        var i :| 0 <= i < |xs| && key(xs[i]) == k;
        if i < |init| {
          assert key(init[i]) == k;
        }
      }
    }
  }

  /** Distinct keys in the recursive sense are exactly pairwise-distinct keys. */
  lemma {:induction false} DistinctKeysPairwise<T>(key: T -> string, xs: seq<T>)
    ensures DistinctKeys(key, xs) <==> forall i, j :: 0 <= i < j < |xs| ==> key(xs[i]) != key(xs[j])
  {
    if xs != [] {
      var init := xs[..|xs| - 1];
      var last := xs[|xs| - 1];
      DistinctKeysPairwise(key, init);
      KeySetMembers(key, init, key(last));
      if DistinctKeys(key, xs) {
        forall i, j | 0 <= i < j < |xs| ensures key(xs[i]) != key(xs[j]) {
          assert xs[i] == init[i];
          if j < |init| {
            assert xs[j] == init[j];
          }
        }
      }
      if forall i, j :: 0 <= i < j < |xs| ==> key(xs[i]) != key(xs[j]) {
        forall i, j | 0 <= i < j < |init| ensures key(init[i]) != key(init[j]) {
          assert init[i] == xs[i] && init[j] == xs[j];
        }
        forall i | 0 <= i < |init| ensures key(init[i]) != key(last) {
          assert init[i] == xs[i];
        }
      }
    }
  }

  /** The key set of a concatenation is the union of the key sets. */
  lemma {:induction false} KeySetAppend<T>(key: T -> string, xs: seq<T>, ys: seq<T>)
    ensures KeySet(key, xs + ys) == KeySet(key, xs) + KeySet(key, ys)
  {
    if ys == [] {
      assert xs + ys == xs;
    } else {
      assert (xs + ys)[..|xs + ys| - 1] == xs + ys[..|ys| - 1];
      KeySetAppend(key, xs, ys[..|ys| - 1]);
    }
  }

  /** The items queued by a batch of offers carry distinct keys, none of them already seen. */
  lemma {:induction false} AcceptedFresh<T>(key: T -> string, admits: T -> bool, seen: set<string>, xs: seq<T>)
    ensures DistinctKeys(key, Accepted(key, admits, seen, xs))
    ensures KeySet(key, Accepted(key, admits, seen, xs)) !! seen
  {
    if xs != [] {
      var before := Accepted(key, admits, seen, xs[..|xs| - 1]);
      var x := xs[|xs| - 1];
      AcceptedFresh(key, admits, seen, xs[..|xs| - 1]);
      if admits(x) && key(x) !in seen + KeySet(key, before) {
        KeySetExtend(key, before, x);
        assert (before + [x])[..|before|] == before;
      }
    }
  }

  /** A batch of offers queues only admitted items of the batch. */
  lemma {:induction false} AcceptedSound<T>(key: T -> string, admits: T -> bool, seen: set<string>, xs: seq<T>)
    ensures forall i :: 0 <= i < |Accepted(key, admits, seen, xs)| ==>
      admits(Accepted(key, admits, seen, xs)[i]) && Accepted(key, admits, seen, xs)[i] in xs
  {
    if xs != [] {
      var init := xs[..|xs| - 1];
      AcceptedSound(key, admits, seen, init);
      forall y | y in init ensures y in xs {
        var j :| 0 <= j < |init| && init[j] == y;
        assert xs[j] == y;
      }
    }
  }

  /**
   * A batch of offers queues its items in the order offered: the queued items sit at strictly increasing
   * positions `pos` of the batch.
   */
  lemma {:induction false} AcceptedInOrder<T>(key: T -> string, admits: T -> bool, seen: set<string>, xs: seq<T>)
    returns (pos: seq<nat>)
    ensures |pos| == |Accepted(key, admits, seen, xs)|
    ensures forall i :: 0 <= i < |pos| ==> pos[i] < |xs| && xs[pos[i]] == Accepted(key, admits, seen, xs)[i]
    ensures forall i, j :: 0 <= i < j < |pos| ==> pos[i] < pos[j]
  {
    if xs == [] {
      pos := [];
    } else {
      var init := xs[..|xs| - 1];
      var x := xs[|xs| - 1];
      var before := Accepted(key, admits, seen, init);
      var earlier := AcceptedInOrder(key, admits, seen, init);
      forall i | 0 <= i < |earlier| ensures xs[earlier[i]] == before[i] {
        assert xs[earlier[i]] == init[earlier[i]];
      }
      if admits(x) && key(x) !in seen + KeySet(key, before) {
        pos := earlier + [|xs| - 1];
      } else {
        pos := earlier;
      }
    }
  }

  /** An admitted item's key is seen or queued once the batch has been offered up to and including that item. */
  lemma AcceptedCompleteAt<T>(key: T -> string, admits: T -> bool, seen: set<string>, xs: seq<T>, i: nat)
    requires i < |xs| && admits(xs[i])
    ensures key(xs[i]) in seen + KeySet(key, Accepted(key, admits, seen, xs[..i + 1]))
  {
    var before := Accepted(key, admits, seen, xs[..i]);
    assert xs[..i + 1] == xs[..i] + [xs[i]];
    AcceptedExtend(key, admits, seen, xs[..i], xs[i]);
    if key(xs[i]) !in seen + KeySet(key, before) {
      KeySetExtend(key, before, xs[i]);
    }
  }

  /** A batch of offers drops an admitted item only when its key was seen before or queued earlier in the batch. */
  lemma {:induction false} AcceptedComplete<T>(key: T -> string, admits: T -> bool, seen: set<string>, xs: seq<T>)
    ensures forall i :: 0 <= i < |xs| && admits(xs[i]) ==> key(xs[i]) in seen + KeySet(key, Accepted(key, admits, seen, xs))
    ensures forall i :: 0 <= i < |xs| && admits(xs[i]) ==>
      key(xs[i]) in seen + KeySet(key, Accepted(key, admits, seen, xs[..i + 1]))
  {
    forall i | 0 <= i < |xs| && admits(xs[i])
      ensures key(xs[i]) in seen + KeySet(key, Accepted(key, admits, seen, xs[..i + 1]))
    {
      AcceptedCompleteAt(key, admits, seen, xs, i);
    }
    if xs != [] {
      var init := xs[..|xs| - 1];
      var x := xs[|xs| - 1];
      var before := Accepted(key, admits, seen, init);
      var after := Accepted(key, admits, seen, xs);
      AcceptedComplete(key, admits, seen, init);
      assert KeySet(key, before) <= KeySet(key, after) && (admits(x) ==> key(x) in seen + KeySet(key, after)) by {
        if after != before {
          assert after[..|after| - 1] == before;
        }
      }
      forall i | 0 <= i < |init| && admits(xs[i]) ensures key(xs[i]) in seen + KeySet(key, after) {
        assert xs[i] == init[i];
      }
    }
  }

  /** Offering a batch queues, in front, what offering any prefix of it queues. */
  lemma {:induction false} AcceptedPrefix<T>(key: T -> string, admits: T -> bool, seen: set<string>, xs: seq<T>, n: nat)
    requires n <= |xs|
    ensures Accepted(key, admits, seen, xs[..n]) <= Accepted(key, admits, seen, xs)
  {
    if n < |xs| {
      var init := xs[..|xs| - 1];
      assert init[..n] == xs[..n];
      AcceptedPrefix(key, admits, seen, init, n);
    } else {
      assert xs[..n] == xs;
    }
  }

  /** Every key a batch queues is the key of an admitted item of the batch. */
  lemma AcceptedKeyOrigin<T>(key: T -> string, admits: T -> bool, seen: set<string>, xs: seq<T>, k: string)
    requires k in KeySet(key, Accepted(key, admits, seen, xs))
    ensures exists j :: 0 <= j < |xs| && admits(xs[j]) && key(xs[j]) == k
  {
    var queued := Accepted(key, admits, seen, xs);
    KeySetMembers(key, queued, k);
    var m :| 0 <= m < |queued| && key(queued[m]) == k;
    AcceptedSound(key, admits, seen, xs);
    var j :| 0 <= j < |xs| && xs[j] == queued[m];
  }

  /**
   * Of the items of a batch that share a key, the first admitted one is queued, provided the key was not seen
   * before: it goes into the queue at its own position, and so is among the items the whole batch queues.
   */
  lemma AcceptedKeepsFirst<T>(key: T -> string, admits: T -> bool, seen: set<string>, xs: seq<T>, i: nat)
    requires i < |xs| && admits(xs[i]) && key(xs[i]) !in seen
    requires forall j :: 0 <= j < i && admits(xs[j]) ==> key(xs[j]) != key(xs[i])
    ensures Accepted(key, admits, seen, xs[..i + 1]) == Accepted(key, admits, seen, xs[..i]) + [xs[i]]
    ensures xs[i] in Accepted(key, admits, seen, xs)
  {
    var before := Accepted(key, admits, seen, xs[..i]);
    if key(xs[i]) in KeySet(key, before) {
      AcceptedKeyOrigin(key, admits, seen, xs[..i], key(xs[i]));
      assert false;
    }
    assert xs[..i + 1] == xs[..i] + [xs[i]];
    AcceptedExtend(key, admits, seen, xs[..i], xs[i]);
    AcceptedPrefix(key, admits, seen, xs, i + 1);
    var prefix := Accepted(key, admits, seen, xs[..i + 1]);
    assert prefix[|prefix| - 1] == xs[i];
    assert Accepted(key, admits, seen, xs)[|prefix| - 1] == xs[i];
  }

  class Scheduler<T> {
    /** The identity of an item for de-duplication. */
    const key: T -> string
    /** The scope policy: whether an offered item may be queued at all. */
    const admits: T -> bool
    /** The items still to visit, oldest first (`paths_to_crawl`). */
    var queue: seq<T>
    /** The keys of every item ever queued. */
    var seen: set<string>
    /** The items already handed out, in order. */
    ghost var dispatched: seq<T>

    /** Every item ever queued has its own key, and the seen-set holds exactly those keys. */
    ghost predicate Valid()
      reads this
    {
      DistinctKeys(key, dispatched + queue) && seen == KeySet(key, dispatched + queue)
    }

    /** An empty scheduler. */
    constructor (key: T -> string, admits: T -> bool)
      ensures Valid()
      ensures this.key == key && this.admits == admits
      ensures queue == [] && seen == {} && dispatched == []
    {
      this.key := key;
      this.admits := admits;
      queue := [];
      seen := {};
      dispatched := [];
    }

    /** A scheduler for a crawl from `seed`: the seed is queued and seen, whatever the policy says of it. */
    constructor Seeded(key: T -> string, admits: T -> bool, seed: T)
      ensures Valid()
      ensures this.key == key && this.admits == admits
      ensures queue == [seed] && seen == {key(seed)} && dispatched == []
    {
      this.key := key;
      this.admits := admits;
      queue := [seed];
      seen := {key(seed)};
      dispatched := [];
      assert [seed][..0] == [];
    }

    /**
     * `add_path` / `schedule_url`: queues `x` at the back when the policy admits it and its key was never
     * seen, and says whether it did; otherwise changes nothing.
     */
    method Offer(x: T) returns (added: bool)
      requires Valid()
      modifies this
      ensures Valid()
      ensures added <==> admits(x) && key(x) !in old(seen)
      ensures queue == (if added then old(queue) + [x] else old(queue))
      ensures seen == (if added then old(seen) + {key(x)} else old(seen))
      ensures dispatched == old(dispatched)
    {
      added := admits(x) && key(x) !in seen;
      if added {
        var all := dispatched + queue;
        assert dispatched + (queue + [x]) == all + [x];
        assert (all + [x])[..|all|] == all;
        queue := queue + [x];
        seen := seen + {key(x)};
      }
    }

    /**
     * `next_path` / `next_url`: the oldest queued item, taken off the queue, or None when the queue is
     * empty. The seen-set is left as it is, so the item can never be queued again.
     */
    method Next() returns (r: Option<T>)
      requires Valid()
      modifies this
      ensures Valid()
      ensures old(queue) == [] ==> r == None && queue == [] && dispatched == old(dispatched)
      ensures old(queue) != [] ==> r == Some(old(queue)[0]) && queue == old(queue)[1..]
                                   && dispatched == old(dispatched) + [old(queue)[0]]
      ensures seen == old(seen)
      ensures r.Some? ==> key(r.value) in seen
    {
      if queue == [] {
        r := None;
      } else {
        r := Some(queue[0]);
        KeySetMembers(key, dispatched + queue, key(queue[0]));
        assert (dispatched + queue)[|dispatched|] == queue[0];
        assert dispatched + queue == (dispatched + [queue[0]]) + queue[1..];
        dispatched := dispatched + [queue[0]];
        queue := queue[1..];
      }
    }
  }
}

=== FILE: scheduler_examples.dfy ===
/**
 * The `Path_Scheduler` cases asserted in tests.py, proved of the scheduler model: paths are the items,
 * a path is its own key, and every path is in scope.
 */
module SchedulerExamples {
  import opened Wrappers
  import opened Scheduling

  const Location := "/path/to/location"

  function PathKey(path: string): string
  {
    path
  }

  function AdmitAll(path: string): bool
  {
    true
  }

  /** `add_path` on a fresh scheduler leaves exactly that path queued. */
  method AddNewPath() returns (queue: seq<string>)
    ensures queue == [Location]
  {
    var s := new Scheduler(PathKey, AdmitAll);
    var _ := s.Offer(Location);
    queue := s.queue;
  }

  /** `add_path` of a path that is still queued is refused. */
  method AddExistingUncrawledPath() returns (added: bool)
    ensures !added
  {
    var s := new Scheduler(PathKey, AdmitAll);
    var _ := s.Offer(Location);
    added := s.Offer(Location);
  }

  /** `add_path` of a path that was queued and handed out already is refused too. */
  method AddExistingCrawledPath() returns (added: bool)
    ensures !added
  {
    var s := new Scheduler(PathKey, AdmitAll);
    var _ := s.Offer(Location);
    var _ := s.Next();
    added := s.Offer(Location);
  }

  /** `next_path` hands out the path that was added. */
  method NextPath() returns (next: Option<string>)
    ensures next == Some(Location)
  {
    var s := new Scheduler(PathKey, AdmitAll);
    var _ := s.Offer(Location);
    next := s.Next();
  }

  /** `next_path` on an empty scheduler gives None instead of raising. */
  method NextPathEmptyContainer() returns (next: Option<string>)
    ensures next == None
  {
    var s := new Scheduler(PathKey, AdmitAll);
    next := s.Next();
  }

  /** Paths come out in the order they were added, and a repeated path is handed out once. */
  method FirstInFirstOut(a: string, b: string) returns (first: Option<string>, second: Option<string>, third: Option<string>)
    requires a != b
    ensures first == Some(a) && second == Some(b) && third == None
  {
    var s := new Scheduler(PathKey, AdmitAll);
    var _ := s.Offer(a);
    var _ := s.Offer(b);
    var _ := s.Offer(a);
    first := s.Next();
    second := s.Next();
    third := s.Next();
  }
}

=== FILE: strings.dfy ===
/** Searches and splits on single characters, as Python's `str.find`, `str.rfind` and `str.split(c, 1)` do them. */
module Strings {
  import opened Wrappers

  /** The first position of `c` in `s`, or `|s|` when `c` does not occur. */
  function IndexOf(s: string, c: char): (r: nat)
    ensures r <= |s|
    ensures r < |s| ==> s[r] == c
    ensures forall i :: 0 <= i < r ==> s[i] != c
  {
    if s == [] then 0
    else if s[0] == c then 0
    else 1 + IndexOf(s[1..], c)
  }

  /** The first position in `s` of any character of `cs`, or `|s|` when none occurs. */
  function IndexOfAny(s: string, cs: set<char>): (r: nat)
    ensures r <= |s|
    ensures r < |s| ==> s[r] in cs
    ensures forall i :: 0 <= i < r ==> s[i] !in cs
  {
    if s == [] then 0
    else if s[0] in cs then 0
    else 1 + IndexOfAny(s[1..], cs)
  }

  /** The last position of `c` in `s`, or -1 when `c` does not occur. */
  function LastIndexOf(s: string, c: char): (r: int)
    ensures -1 <= r < |s|
    ensures 0 <= r ==> s[r] == c
    ensures forall i :: r < i < |s| ==> s[i] != c
  {
    if s == [] then -1
    else if s[|s| - 1] == c then |s| - 1
    else LastIndexOf(s[..|s| - 1], c)
  }

  /** `sub` occurs somewhere in `s` (Python's `sub in s`). */
  predicate Contains(s: string, sub: string)
  {
    sub <= s || (s != [] && Contains(s[1..], sub))
  }

  /** `s` cut at its first `c`: the part before and the part after it; `(s, "")` when `c` does not occur. */
  function SplitFirst(s: string, c: char): (string, string)
  {
    var i := IndexOf(s, c);
    if i < |s| then (s[..i], s[i + 1..]) else (s, "")
  }

  /** `s` cut at its last `c`, or None when `c` does not occur. */
  function SplitLast(s: string, c: char): Option<(string, string)>
  {
    var j := LastIndexOf(s, c);
    if 0 <= j then Some((s[..j], s[j + 1..])) else None
  }

  /** `a` and `b` joined by `c`, the separator omitted when `b` is empty. */
  function JoinNonEmpty(a: string, c: char, b: string): string
  {
    if b == "" then a else a + [c] + b
  }

  lemma IndexOfUnique(s: string, c: char, k: nat)
    requires k <= |s| && (k < |s| ==> s[k] == c)
    requires forall i :: 0 <= i < k ==> s[i] != c
    ensures IndexOf(s, c) == k
  {
  }

  lemma IndexOfAnyUnique(s: string, cs: set<char>, k: nat)
    requires k <= |s| && (k < |s| ==> s[k] in cs)
    requires forall i :: 0 <= i < k ==> s[i] !in cs
    ensures IndexOfAny(s, cs) == k
  {
  }

  lemma LastIndexOfUnique(s: string, c: char, k: int)
    requires -1 <= k < |s| && (0 <= k ==> s[k] == c)
    requires forall i :: k < i < |s| ==> s[i] != c
    ensures LastIndexOf(s, c) == k
  {
  }

  /** Searching a concatenation finds the occurrence in the first part, if any, else searches the second. */
  lemma IndexOfAppend(a: string, b: string, c: char)
    ensures IndexOf(a + b, c) == if IndexOf(a, c) < |a| then IndexOf(a, c) else |a| + IndexOf(b, c)
  {
    var i := IndexOf(a, c);
    if i < |a| {
      IndexOfUnique(a + b, c, i);
    } else {
      var j := IndexOf(b, c);
      assert forall k :: 0 <= k < |a| + j ==> (a + b)[k] != c by {
        forall k | 0 <= k < |a| + j ensures (a + b)[k] != c {
          if k >= |a| { assert (a + b)[k] == b[k - |a|]; }
        }
      }
      IndexOfUnique(a + b, c, |a| + j);
    }
  }

  lemma IndexOfAnyAppend(a: string, b: string, cs: set<char>)
    ensures IndexOfAny(a + b, cs) == if IndexOfAny(a, cs) < |a| then IndexOfAny(a, cs) else |a| + IndexOfAny(b, cs)
  {
    var i := IndexOfAny(a, cs);
    if i < |a| {
      IndexOfAnyUnique(a + b, cs, i);
    } else {
      var j := IndexOfAny(b, cs);
      assert forall k :: 0 <= k < |a| + j ==> (a + b)[k] !in cs by {
        forall k | 0 <= k < |a| + j ensures (a + b)[k] !in cs {
          if k >= |a| { assert (a + b)[k] == b[k - |a|]; }
        }
      }
      IndexOfAnyUnique(a + b, cs, |a| + j);
    }
  }

  /** Searching a concatenation backwards finds the last occurrence in the second part, if any, else in the first. */
  lemma LastIndexOfAppend(a: string, b: string, c: char)
    ensures LastIndexOf(a + b, c) == if 0 <= LastIndexOf(b, c) then |a| + LastIndexOf(b, c) else LastIndexOf(a, c)
  {
    var j := LastIndexOf(b, c);
    if 0 <= j {
      assert forall k :: |a| + j < k < |a| + |b| ==> (a + b)[k] != c by {
        forall k | |a| + j < k < |a| + |b| ensures (a + b)[k] != c {
          assert (a + b)[k] == b[k - |a|];
        }
      }
      LastIndexOfUnique(a + b, c, |a| + j);
    } else {
      var i := LastIndexOf(a, c);
      assert forall k :: i < k < |a| + |b| ==> (a + b)[k] != c by {
        forall k | i < k < |a| + |b| ensures (a + b)[k] != c {
          if k >= |a| { assert (a + b)[k] == b[k - |a|]; }
        }
      }
      LastIndexOfUnique(a + b, c, i);
    }
  }

  /** Splitting at the first `c` undoes joining with `c` when the left part holds no `c`. */
  lemma SplitFirstJoin(a: string, c: char, b: string)
    requires c !in a
    ensures SplitFirst(JoinNonEmpty(a, c, b), c) == (a, b)
  {
    IndexOfUnique(a, c, |a|);
    if b != "" {
      IndexOfAppend(a, [c] + b, c);
      assert a + [c] + b == a + ([c] + b);
      var s := a + [c] + b;
      assert s[..|a|] == a;
      assert s[|a| + 1..] == b;
    }
  }

  /** Splitting at the last `c` undoes joining with `c` when the right part holds no `c`. */
  lemma SplitLastJoin(a: string, c: char, b: string)
    requires c !in b
    ensures SplitLast(a + [c] + b, c) == Some((a, b))
  {
    var s := a + [c] + b;
    assert forall k :: |a| < k < |s| ==> s[k] != c by {
      forall k | |a| < k < |s| ensures s[k] != c {
        assert s[k] == b[k - |a| - 1];
      }
    }
    LastIndexOfUnique(s, c, |a|);
    assert s[..|a|] == a;
    assert s[|a| + 1..] == b;
  }

  /** A string without `c` cannot be split at it. */
  lemma SplitLastAbsent(s: string, c: char)
    requires c !in s
    ensures SplitLast(s, c) == None
  {
    LastIndexOfUnique(s, c, -1);
  }

  /** The two halves of a first-occurrence split, and how they make up the whole. */
  lemma SplitFirstParts(s: string, c: char)
    ensures c !in SplitFirst(s, c).0
    ensures c in s ==> s == SplitFirst(s, c).0 + [c] + SplitFirst(s, c).1
    ensures c !in s ==> SplitFirst(s, c) == (s, "")
  {
    var i := IndexOf(s, c);
    if i < |s| {
      assert s == s[..i] + [c] + s[i + 1..];
    }
  }

  /** The two halves of a last-occurrence split, and how they make up the whole. */
  lemma SplitLastParts(s: string, c: char)
    ensures SplitLast(s, c).None? ==> c !in s
    ensures SplitLast(s, c).Some? ==> c !in SplitLast(s, c).value.1
    ensures SplitLast(s, c).Some? ==> s == SplitLast(s, c).value.0 + [c] + SplitLast(s, c).value.1
  {
    var j := LastIndexOf(s, c);
    if 0 <= j {
      assert s == s[..j] + [c] + s[j + 1..];
    }
  }

  /** Nothing before the first occurrence of `c` is `c`. */
  lemma IndexOfPrefixFree(s: string, c: char)
    ensures c !in s[..IndexOf(s, c)]
  {
    var i := IndexOf(s, c);
    assert forall k :: 0 <= k < i ==> s[..i][k] == s[k];
  }
}

=== FILE: url_examples.dfy ===
/** The URL parser cases asserted in tests.py, proved of the model. */
module UrlExamples {
  import opened Wrappers
  import opened Strings
  import opened Urls

  /** How a URL with params, query and fragment all present is spelled. */
  lemma SpellAllParts(p: ParsedUrl)
    requires p.params != "" && p.query != "" && p.fragment != ""
    ensures Reconstruct(p) == p.scheme + "://" + Netloc(p) + p.path + ";" + p.params + "?" + p.query + "#" + p.fragment
  {
  }

  /** The path shared by the cases, the params and the query of the all-parts case. */
  const Location := "/path/to/location"
  const Params := "param1=value1&param2=value2"
  const Query := "param3=value3"

  /** The URL of the all-parts case, written in pieces, one per part. */
  const AllParts := "https" + "://" + "www.example.com" + Location + ";" + Params + "?" + Query + "#" + "frag"
  const AllPartsParsed := ParsedUrl("https", "www", "example", "com", Location, Params, Query, "frag")

  /** The URL of the path-only case, `https://www.example.com/path/to/location`. */
  const PathOnly := "https" + "://" + "www.example.com" + Location
  const PathOnlyParsed := ParsedUrl("https", "www", "example", "com", Location, "", "", "")

  /** The last segment of the shared path starts at its third '/'. */
  lemma LocationSegment()
    ensures SegmentStart(Location) == 8 && Location[8..] == "/location"
  {
    LastIndexOfUnique(Location, '/', 8);
  }

  /** The shared path is absolute and holds none of the separators that would end it. */
  lemma LocationWellFormed()
    ensures Location[0] == '/' && '?' !in Location && '#' !in Location
    ensures ';' !in Location[SegmentStart(Location)..]
  {
    LocationSegment();
  }

  lemma ParamsAndQueryWellFormed()
    ensures '/' !in Params && '?' !in Params && '#' !in Params && '#' !in Query
  {
  }

  /** The parts of the all-parts case are well-formed. */
  lemma AllPartsWellFormed()
    ensures WellFormed(AllPartsParsed)
  {
    LocationWellFormed();
    ParamsAndQueryWellFormed();
  }

  /** The parts of the all-parts case spell its URL. */
  lemma AllPartsSpell()
    ensures Reconstruct(AllPartsParsed) == AllParts
  {
    assert Netloc(AllPartsParsed) == "www.example.com";
    SpellAllParts(AllPartsParsed);
  }

  /** The parts of the all-parts case are well-formed and spell its URL. */
  lemma AllPartsSpelled()
    ensures WellFormed(AllPartsParsed) && Reconstruct(AllPartsParsed) == AllParts
  {
    AllPartsWellFormed();
    AllPartsSpell();
  }

  /** `parse_url` of the URL with every part present gives the eight parts, params apart from query. */
  lemma ParseAllParts()
    ensures Parse(AllParts) == Ok(AllPartsParsed)
  {
    AllPartsSpelled();
    ParseReconstruct(AllPartsParsed);
  }

  /** `get_url(parse_url(u))` gives back the URL with every part present. */
  lemma ReconstructAllParts()
    ensures Parse(AllParts).Ok? && Reconstruct(Parse(AllParts).value) == AllParts
  {
    ParseAllParts();
    AllPartsSpelled();
  }

  /** The parts of the path-only case are well-formed and spell its URL. */
  lemma PathOnlySpelled()
    ensures WellFormed(PathOnlyParsed) && Reconstruct(PathOnlyParsed) == PathOnly
  {
    PathOnlyWellFormed();
    PathOnlySpell();
  }

  lemma PathOnlyWellFormed()
    ensures WellFormed(PathOnlyParsed)
  {
    LocationWellFormed();
  }

  lemma PathOnlySpell()
    ensures Reconstruct(PathOnlyParsed) == PathOnly
  {
    PathOnlyNetloc();
    PathOnlyTail();
  }

  lemma PathOnlyNetloc()
    ensures Netloc(PathOnlyParsed) == "www.example.com"
  {
  }

  lemma PathOnlyTail()
    ensures Tail(PathOnlyParsed) == Location
  {
  }

  /** `parse_url` of the URL without params, query or fragment gives those three as empty strings. */
  lemma ParsePathOnly()
    ensures Parse(PathOnly) == Ok(PathOnlyParsed)
  {
    PathOnlySpelled();
    ParseReconstruct(PathOnlyParsed);
  }

  /** `get_url(parse_url(u))` gives back the URL without params, query or fragment. */
  lemma ReconstructPathOnly()
    ensures Parse(PathOnly).Ok? && Reconstruct(Parse(PathOnly).value) == PathOnly
  {
    ParsePathOnly();
    PathOnlySpelled();
  }

  /** The parts of a bare `scheme://netloc` URL. */
  function HostOnly(scheme: string, sub: string, domain: string, tld: string): ParsedUrl
  {
    ParsedUrl(scheme, sub, domain, tld, "", "", "", "")
  }

  /** A bare `scheme://sub.domain.tld` URL parses into its host parts with an empty tail. */
  lemma ParseHost(scheme: string, sub: string, domain: string, tld: string)
    requires HostWellFormed(HostOnly(scheme, sub, domain, tld))
    ensures Parse(scheme + "://" + JoinHost(sub, domain, tld)) == Ok(HostOnly(scheme, sub, domain, tld))
  {
    var p := HostOnly(scheme, sub, domain, tld);
    assert Reconstruct(p) == scheme + "://" + JoinHost(sub, domain, tld) by {
      assert Tail(p) == "";
    }
    ParseReconstruct(p);
  }

  /**
   * The `is_subdomain` case of `www.example.com` against `www.example.io`, for every such pair of hosts that
   * differ in their tld only: it holds under the domain-label reading and fails under the registered-domain
   * reading, which requires the same tld.
   */
  lemma SubdomainAcrossTlds(scheme: string, sub: string, domain: string, tld1: string, tld2: string)
    requires HostWellFormed(HostOnly(scheme, sub, domain, tld1)) && HostWellFormed(HostOnly(scheme, sub, domain, tld2))
    requires tld1 != tld2
    ensures var a := Parse(scheme + "://" + JoinHost(sub, domain, tld1));
      var b := Parse(scheme + "://" + JoinHost(sub, domain, tld2));
      && a == Ok(HostOnly(scheme, sub, domain, tld1)) && b == Ok(HostOnly(scheme, sub, domain, tld2))
      && IsSubdomain(DomainLabel, a.value, b.value)
      && !IsSubdomain(RegisteredDomain, a.value, b.value)
  {
    ParseHost(scheme, sub, domain, tld1);
    ParseHost(scheme, sub, domain, tld2);
    SameNetlocParts(HostOnly(scheme, sub, domain, tld1), HostOnly(scheme, sub, domain, tld2));
  }

  /**
   * The case of `www.example.com` against `www.otherwebsite.com`, for every pair of hosts with different
   * domain names: `is_subdomain` fails under either reading, and so does `same_netloc`.
   */
  lemma SubdomainOtherWebsite(reading: SubdomainReading, scheme: string, sub: string, domain1: string, domain2: string, tld: string)
    requires HostWellFormed(HostOnly(scheme, sub, domain1, tld)) && HostWellFormed(HostOnly(scheme, sub, domain2, tld))
    requires domain1 != domain2
    ensures var a := Parse(scheme + "://" + JoinHost(sub, domain1, tld));
      var b := Parse(scheme + "://" + JoinHost(sub, domain2, tld));
      && a == Ok(HostOnly(scheme, sub, domain1, tld)) && b == Ok(HostOnly(scheme, sub, domain2, tld))
      && !IsSubdomain(reading, a.value, b.value)
      && !SameNetloc(a.value, b.value)
  {
    ParseHost(scheme, sub, domain1, tld);
    ParseHost(scheme, sub, domain2, tld);
    SameNetlocParts(HostOnly(scheme, sub, domain1, tld), HostOnly(scheme, sub, domain2, tld));
  }

    /** A `scheme://sub.domain.tld/path` URL whose path holds no ';', '?' or '#' parses into its host parts and that path. */
  lemma ParseHostPath(scheme: string, sub: string, domain: string, tld: string, path: string)
    requires HostWellFormed(HostOnly(scheme, sub, domain, tld))
    requires path != "" && path[0] == '/' && ';' !in path && '?' !in path && '#' !in path
    ensures Parse(scheme + "://" + JoinHost(sub, domain, tld) + path) == Ok(HostOnly(scheme, sub, domain, tld).(path := path))
  {
    var p := HostOnly(scheme, sub, domain, tld).(path := path);
    assert ';' !in path[SegmentStart(path)..] by {
      var seg := path[SegmentStart(path)..];
      forall k | 0 <= k < |seg|
        ensures seg[k] != ';'
      {
        assert seg[k] == path[SegmentStart(path) + k];
      }
    }
    assert WellFormed(p);
    assert Reconstruct(p) == scheme + "://" + JoinHost(sub, domain, tld) + path by {
      assert Tail(p) == path;
    }
    ParseReconstruct(p);
  }

  /**
   * The `same_netloc` and `is_subdomain` cases of two URLs on one host with different paths, for every host
   * and every pair of plain absolute paths: both parse, their netlocs are the same, and neither reading counts
   * one as a subdomain of the other.
   */
  lemma SubdomainSameWebsite(reading: SubdomainReading, scheme: string, sub: string, domain: string, tld: string,
                             path1: string, path2: string)
    requires HostWellFormed(HostOnly(scheme, sub, domain, tld))
    requires path1 != "" && path1[0] == '/' && ';' !in path1 && '?' !in path1 && '#' !in path1
    requires path2 != "" && path2[0] == '/' && ';' !in path2 && '?' !in path2 && '#' !in path2
    ensures var a := Parse(scheme + "://" + JoinHost(sub, domain, tld) + path1);
      var b := Parse(scheme + "://" + JoinHost(sub, domain, tld) + path2);
      && a == Ok(HostOnly(scheme, sub, domain, tld).(path := path1))
      && b == Ok(HostOnly(scheme, sub, domain, tld).(path := path2))
      && SameNetloc(a.value, b.value)
      && !IsSubdomain(reading, a.value, b.value)
  {
    ParseHostPath(scheme, sub, domain, tld, path1);
    ParseHostPath(scheme, sub, domain, tld, path2);
    var a := HostOnly(scheme, sub, domain, tld).(path := path1);
    var b := HostOnly(scheme, sub, domain, tld).(path := path2);
    ParseWellFormed(scheme + "://" + JoinHost(sub, domain, tld) + path1);
    ParseWellFormed(scheme + "://" + JoinHost(sub, domain, tld) + path2);
    assert SameNetloc(a, b);
    IsSubdomainNotSameNetloc(reading, a, b);
  }
}

=== FILE: urls.dfy ===
/**
 * The crawler's URL parser: a URL is split into eight string parts (scheme, subdomain, domain, tld, path,
 * params, query, fragment) and put back together, and the host parts of two URLs are compared.
 * Splitting is modelled on Python's `urlparse`: the netloc runs up to the first '/', '?' or '#', the
 * fragment follows the first '#', the query the first '?' before it, and the params the first ';' of the
 * last path segment. Unlike `urlparse`, the scheme is any non-empty text before the first ':', "//" must
 * follow it, and params are split off whatever the scheme. The netloc is split on its two rightmost dots
 * into subdomain, domain and tld.
 */
module Urls {
  import opened Wrappers
  import opened Strings

  datatype ParsedUrl = ParsedUrl(
    scheme: string, subdomain: string, domain: string, tld: string,
    path: string, params: string, query: string, fragment: string)

  /** Why a string is not a URL the parser accepts. */
  datatype UrlError =
    | MissingScheme    // no ':' or nothing before it
    | MissingNetloc    // the scheme is not followed by "//"
    | MalformedHost    // the netloc has no '.', or has two or more dots and an empty subdomain

  /** The characters that end the netloc. */
  const NetlocEnd: set<char> := {'/', '?', '#'}

  /** The netloc `subdomain.domain.tld`, the subdomain and its dot omitted when empty. */
  function Netloc(p: ParsedUrl): string
  {
    JoinHost(p.subdomain, p.domain, p.tld)
  }

  function JoinHost(subdomain: string, domain: string, tld: string): string
  {
    (if subdomain == "" then "" else subdomain + ".") + domain + "." + tld
  }

  /** Everything after the netloc: `path;params?query#fragment`, each empty optional part left out with its separator. */
  function Tail(p: ParsedUrl): string
  {
    JoinNonEmpty(JoinNonEmpty(JoinNonEmpty(p.path, ';', p.params), '?', p.query), '#', p.fragment)
  }

  /** `get_url`: the URL the parts spell. */
  function Reconstruct(p: ParsedUrl): string
  {
    p.scheme + "://" + Netloc(p) + Tail(p)
  }

  /** Where the last path segment starts: the last '/', or 0 when there is none. */
  function SegmentStart(path: string): nat
  {
    var j := LastIndexOf(path, '/');
    if j < 0 then 0 else j
  }

  /** Splits `path;params` at the first ';' of the last segment. */
  function SplitParams(s: string): (string, string)
  {
    var start := SegmentStart(s);
    var j := start + IndexOf(s[start..], ';');
    if j < |s| then (s[..j], s[j + 1..]) else (s, "")
  }

  /**
   * Splits a netloc on its two rightmost dots into (subdomain, domain, tld); None when the netloc has no dot,
   * or has two or more dots and an empty subdomain.
   */
  function SplitHost(netloc: string): Option<(string, string, string)>
  {
    match SplitLast(netloc, '.')
    case None => None
    case Some((rest, tld)) =>
      match SplitLast(rest, '.')
      case None => Some(("", rest, tld))
      case Some((sub, domain)) => if sub == "" then None else Some((sub, domain, tld))
  }

  /** Splits what follows the netloc into (path, params, query, fragment). */
  function SplitTail(tail: string): (string, string, string, string)
  {
    var (beforeFragment, fragment) := SplitFirst(tail, '#');
    var (pathAndParams, query) := SplitFirst(beforeFragment, '?');
    var (path, params) := SplitParams(pathAndParams);
    (path, params, query, fragment)
  }

  /** Cuts what follows "//" at the first character that ends the netloc: (netloc, tail). */
  function CutNetloc(after: string): (string, string)
  {
    var n := IndexOfAny(after, NetlocEnd);
    (after[..n], after[n..])
  }

  /** Parses what follows `scheme:`: a "//", the netloc, then the tail. */
  function ParseAfterScheme(scheme: string, rest: string): Result<ParsedUrl, UrlError>
  {
    if !("//" <= rest) then Err(MissingNetloc)
    else
      var (netloc, tail) := CutNetloc(rest[2..]);
      match SplitHost(netloc)
      case None => Err(MalformedHost)
      case Some((sub, domain, tld)) =>
        var (path, params, query, fragment) := SplitTail(tail);
        Ok(ParsedUrl(scheme, sub, domain, tld, path, params, query, fragment))
  }

  /** `parse_url`: the eight parts of `u`, each empty when absent, or why `u` is not a URL. */
  function Parse(u: string): Result<ParsedUrl, UrlError>
  {
    var i := IndexOf(u, ':');
    if i == 0 || i == |u| then Err(MissingScheme)
    else ParseAfterScheme(u[..i], u[i + 1..])
  }

  /**
   * The parts of a URL in canonical form: no part holds a separator that would move a boundary, the
   * path is empty or absolute, and params only follow a non-empty path.
   */
  predicate WellFormed(p: ParsedUrl)
  {
    HostWellFormed(p) && TailWellFormed(p)
  }

  /** A non-empty scheme without ':', and host parts without the characters that end the netloc or split it. */
  predicate HostWellFormed(p: ParsedUrl)
  {
    && p.scheme != "" && ':' !in p.scheme
    && '/' !in p.subdomain && '?' !in p.subdomain && '#' !in p.subdomain
    && '/' !in p.domain && '?' !in p.domain && '#' !in p.domain && '.' !in p.domain
    && '/' !in p.tld && '?' !in p.tld && '#' !in p.tld && '.' !in p.tld
  }

  /** Path, params and query without the separators that end them. */
  predicate TailWellFormed(p: ParsedUrl)
  {
    && (p.path == "" || p.path[0] == '/')
    && '?' !in p.path && '#' !in p.path && ';' !in p.path[SegmentStart(p.path)..]
    && (p.path == "" ==> p.params == "")
    && '/' !in p.params && '?' !in p.params && '#' !in p.params
    && '#' !in p.query
  }

  /** `same_netloc`: both URLs name the same host. */
  predicate SameNetloc(a: ParsedUrl, b: ParsedUrl)
  {
    Netloc(a) == Netloc(b)
  }

  /**
   * Two readings of `is_subdomain(a, b)`: the usual registered-domain reading, and the domain-label reading
   * that the cases of tests.py:96-109 agree with. They disagree on `www.example.com` / `www.example.io`.
   */
  datatype SubdomainReading =
    | RegisteredDomain // same domain and tld, and b has a non-empty subdomain different from a's
    | DomainLabel      // same domain label, different netloc

  /** `is_subdomain` under the given reading. */
  predicate IsSubdomain(reading: SubdomainReading, a: ParsedUrl, b: ParsedUrl)
  {
    match reading
    case RegisteredDomain =>
      a.domain == b.domain && a.tld == b.tld && b.subdomain != "" && a.subdomain != b.subdomain
    case DomainLabel =>
      a.domain == b.domain && !SameNetloc(a, b)
  }

  // ---------------------------------------------------------------------------------------------
  // Round trip

  /** Splitting the joined host gives back its three parts. */
  lemma SplitHostJoin(p: ParsedUrl)
    requires '.' !in p.domain && '.' !in p.tld
    ensures SplitHost(Netloc(p)) == Some((p.subdomain, p.domain, p.tld))
  {
    var head := (if p.subdomain == "" then "" else p.subdomain + ".") + p.domain;
    assert Netloc(p) == head + ['.'] + p.tld;
    SplitLastJoin(head, '.', p.tld);
    if p.subdomain == "" {
      assert head == p.domain;
      SplitLastAbsent(p.domain, '.');
    } else {
      assert head == p.subdomain + ['.'] + p.domain;
      SplitLastJoin(p.subdomain, '.', p.domain);
    }
  }

  /** Splitting the joined `path;params` gives back path and params. */
  lemma SplitParamsJoin(path: string, params: string)
    requires path == "" || path[0] == '/'
    requires ';' !in path[SegmentStart(path)..]
    requires '/' !in params
    requires path == "" ==> params == ""
    ensures SplitParams(JoinNonEmpty(path, ';', params)) == (path, params)
  {
    var start := SegmentStart(path);
    IndexOfUnique(path[start..], ';', |path| - start);
    if params != "" {
      var s := path + [';'] + params;
      assert s == path + ([';'] + params);
      LastIndexOfUnique([';'] + params, '/', -1);
      LastIndexOfAppend(path, [';'] + params, '/');
      assert SegmentStart(s) == start;
      assert s[start..] == path[start..] + ([';'] + params);
      IndexOfAppend(path[start..], [';'] + params, ';');
      assert start + IndexOf(s[start..], ';') == |path|;
      assert s[..|path|] == path;
      assert s[|path| + 1..] == params;
      assert SplitParams(s) == (path, params);
    } else {
      assert JoinNonEmpty(path, ';', params) == path;
      assert start + IndexOf(path[start..], ';') == |path|;
    }
  }

  /** The text after the netloc starts with a character that ends the netloc, or is empty. */
  lemma TailStartsAtNetlocEnd(p: ParsedUrl)
    requires WellFormed(p)
    ensures IndexOfAny(Tail(p), NetlocEnd) == 0
  {
    var t := Tail(p);
    if t != "" {
      if p.path != "" {
        assert t[0] == p.path[0];
      } else if p.query != "" {
        assert t[0] == '?';
      } else {
        assert t[0] == '#';
      }
    }
  }

  /** The tail splits back into its four parts. */
  lemma SplitTailJoin(p: ParsedUrl)
    requires WellFormed(p)
    ensures SplitTail(Tail(p)) == (p.path, p.params, p.query, p.fragment)
  {
    var pathAndParams := JoinNonEmpty(p.path, ';', p.params);
    var beforeFragment := JoinNonEmpty(pathAndParams, '?', p.query);
    SplitFirstJoin(beforeFragment, '#', p.fragment);
    SplitFirstJoin(pathAndParams, '?', p.query);
    SplitParamsJoin(p.path, p.params);
  }

  /** Cutting a netloc free of the netloc-ending characters joined to a tail that starts with one gives the two back. */
  lemma CutNetlocJoin(netloc: string, tail: string)
    requires '/' !in netloc && '?' !in netloc && '#' !in netloc
    requires tail == "" || tail[0] in NetlocEnd
    ensures CutNetloc(netloc + tail) == (netloc, tail)
  {
    assert forall k :: 0 <= k < |netloc| ==> netloc[k] !in NetlocEnd;
    IndexOfAnyUnique(netloc, NetlocEnd, |netloc|);
    IndexOfAnyUnique(tail, NetlocEnd, 0);
    IndexOfAnyAppend(netloc, tail, NetlocEnd);
    assert (netloc + tail)[..|netloc|] == netloc;
    assert (netloc + tail)[|netloc|..] == tail;
  }

  /** The cut puts the two halves back together, leaves no netloc-ending character in the netloc, and starts the tail with one. */
  lemma CutNetlocParts(after: string)
    ensures var (netloc, tail) := CutNetloc(after);
      && after == netloc + tail
      && '/' !in netloc && '?' !in netloc && '#' !in netloc
      && (tail == "" || tail[0] in NetlocEnd)
  {
    var n := IndexOfAny(after, NetlocEnd);
    assert after == after[..n] + after[n..];
    assert forall k :: 0 <= k < n ==> after[..n][k] == after[k];
  }

  /** What follows `scheme:` parses back into the netloc parts and the tail parts. */
  lemma AfterSchemeJoin(p: ParsedUrl)
    requires WellFormed(p)
    ensures ParseAfterScheme(p.scheme, "//" + Netloc(p) + Tail(p)) == Ok(p)
  {
    var netloc := Netloc(p);
    var tail := Tail(p);
    var rest := "//" + netloc + tail;
    assert rest[2..] == netloc + tail;
    TailStartsAtNetlocEnd(p);
    CutNetlocJoin(netloc, tail);
    SplitHostJoin(p);
    SplitTailJoin(p);
  }

  /** A scheme without ':' followed by ':' is cut off at that ':', and the rest is parsed. */
  lemma ParseAtScheme(scheme: string, rest: string)
    requires scheme != "" && ':' !in scheme
    ensures Parse(scheme + [':'] + rest) == ParseAfterScheme(scheme, rest)
  {
    var u := scheme + [':'] + rest;
    assert u == scheme + ([':'] + rest);
    IndexOfUnique(scheme, ':', |scheme|);
    IndexOfAppend(scheme, [':'] + rest, ':');
    assert IndexOf(u, ':') == |scheme|;
    assert u[..|scheme|] == scheme;
    assert u[|scheme| + 1..] == rest;
  }

  /** Parsing the URL that well-formed parts spell gives back exactly those parts. */
  lemma ParseReconstruct(p: ParsedUrl)
    requires WellFormed(p)
    ensures Parse(Reconstruct(p)) == Ok(p)
  {
    var rest := "//" + Netloc(p) + Tail(p);
    assert Reconstruct(p) == p.scheme + [':'] + rest;
    ParseAtScheme(p.scheme, rest);
    AfterSchemeJoin(p);
  }

  // ---------------------------------------------------------------------------------------------
  // What parsing produces

  /** The params split: the params hold no '/'. */
  lemma SplitParamsNoSlash(s: string)
    ensures '/' !in SplitParams(s).1
  {
    var start := SegmentStart(s);
    var j := start + IndexOf(s[start..], ';');
    if j < |s| {
      assert SplitParams(s).1 == s[j + 1..];
      assert forall k :: j < k < |s| ==> s[k] != '/';
    }
  }

  /** The params split: the path keeps no ';' in its last segment. */
  lemma SplitParamsNoSemicolon(s: string)
    ensures ';' !in SplitParams(s).0[SegmentStart(SplitParams(s).0)..]
  {
    var start := SegmentStart(s);
    var j := start + IndexOf(s[start..], ';');
    var last := LastIndexOf(s, '/');
    if j < |s| {
      var path := s[..j];
      assert SplitParams(s).0 == path;
      assert forall k :: start <= k < j ==> s[k] != ';' by {
        forall k | start <= k < j ensures s[k] != ';' {
          assert s[k] == s[start..][k - start];
        }
      }
      if 0 <= last {
        assert last < j;
        LastIndexOfUnique(path, '/', last);
      } else {
        LastIndexOfUnique(path, '/', -1);
      }
      assert SegmentStart(path) == start;
      assert path[start..] == s[start..j];
    } else {
      assert SplitParams(s).0 == s;
    }
  }

  /** The params split: path and params make up the input again, and without a ';' everything is path. */
  lemma SplitParamsCover(s: string)
    ensures s == SplitParams(s).0 + [';'] + SplitParams(s).1 || (s == SplitParams(s).0 && SplitParams(s).1 == "")
    ensures ';' !in s ==> SplitParams(s) == (s, "")
  {
    var start := SegmentStart(s);
    var j := start + IndexOf(s[start..], ';');
    if j < |s| {
      assert s[j] == s[start..][j - start];
      assert SplitParams(s) == (s[..j], s[j + 1..]);
      assert s == s[..j] + [';'] + s[j + 1..];
    } else {
      assert SplitParams(s) == (s, "");
    }
  }

  /** The params split keeps an absolute input's path absolute. */
  lemma SplitParamsAbsolute(s: string)
    requires s != "" && s[0] == '/'
    ensures SplitParams(s).0 != "" && SplitParams(s).0[0] == '/'
  {
    var start := SegmentStart(s);
    var j := start + IndexOf(s[start..], ';');
    assert s[start] == '/';
    assert s[start..][0] == '/';
    assert j > start;
    if j < |s| {
      assert SplitParams(s).0 == s[..j];
    }
  }

  /** What follows the netloc splits into parts that make it up again, separators kept only before non-empty parts. */
  lemma SplitTailParts(tail: string)
    requires tail == "" || tail[0] in NetlocEnd
    ensures var (path, params, query, fragment) := SplitTail(tail);
      && (path == "" || path[0] == '/')
      && '?' !in path && '#' !in path && ';' !in path[SegmentStart(path)..]
      && (path == "" ==> params == "")
      && '/' !in params && '?' !in params && '#' !in params
      && '#' !in query
      && (params != "" && query != "" && fragment != "" ==> tail == JoinNonEmpty(JoinNonEmpty(JoinNonEmpty(path, ';', params), '?', query), '#', fragment))
      && (';' !in tail && '?' !in tail && '#' !in tail ==> tail == path && params == "" && query == "" && fragment == "")
  {
    var (beforeFragment, fragment) := SplitFirst(tail, '#');
    var (pathAndParams, query) := SplitFirst(beforeFragment, '?');
    var (path, params) := SplitParams(pathAndParams);
    SplitFirstParts(tail, '#');
    SplitFirstParts(beforeFragment, '?');
    SplitParamsNoSlash(pathAndParams);
    SplitParamsNoSemicolon(pathAndParams);
    SplitParamsCover(pathAndParams);
    if tail != "" && tail[0] == '/' {
      assert beforeFragment != "" && beforeFragment[0] == '/';
      assert pathAndParams != "" && pathAndParams[0] == '/';
      SplitParamsAbsolute(pathAndParams);
    } else if tail != "" {
      assert tail[0] == '?' || tail[0] == '#';
      if tail[0] == '#' {
        assert beforeFragment == "";
      } else {
        assert beforeFragment != "" && beforeFragment[0] == '?';
      }
      assert pathAndParams == "";
    }
    if params != "" && query != "" && fragment != "" {
      assert '#' in tail;
      assert '?' in beforeFragment;
      assert pathAndParams == path + [';'] + params;
    }
  }

  /** A host split gives parts that join back into the host, the domain and tld without dots. */
  lemma SplitHostShape(netloc: string)
    requires SplitHost(netloc).Some?
    ensures var (sub, domain, tld) := SplitHost(netloc).value;
      JoinHost(sub, domain, tld) == netloc && '.' !in domain && '.' !in tld
  {
    SplitLastParts(netloc, '.');
    var (host, tld) := SplitLast(netloc, '.').value;
    SplitLastParts(host, '.');
  }

  /** A string cut at a ':' that is followed by "//", a netloc and a tail is the scheme, "://", the netloc and the tail. */
  lemma Reassemble(u: string, i: nat, netloc: string, tail: string)
    requires i < |u| && u[i] == ':'
    requires u[i + 1..] == "//" + netloc + tail
    ensures u == u[..i] + "://" + netloc + tail
  {
    assert u == u[..i] + [':'] + u[i + 1..];
  }

  /** An accepted remainder starts with "//", and its parts are those of the host and the tail it is cut into. */
  lemma AfterSchemeParts(scheme: string, rest: string) returns (netloc: string, tail: string)
    requires ParseAfterScheme(scheme, rest).Ok?
    ensures "//" <= rest && CutNetloc(rest[2..]) == (netloc, tail)
    ensures SplitHost(netloc).Some?
    ensures var (sub, domain, tld) := SplitHost(netloc).value;
      var (path, params, query, fragment) := SplitTail(tail);
      ParseAfterScheme(scheme, rest).value == ParsedUrl(scheme, sub, domain, tld, path, params, query, fragment)
  {
    netloc, tail := CutNetloc(rest[2..]).0, CutNetloc(rest[2..]).1;
  }

  /** What follows an accepted scheme is "//", the netloc the parts spell, and a tail that splits into the rest. */
  lemma AfterSchemeShape(scheme: string, rest: string) returns (tail: string)
    requires ParseAfterScheme(scheme, rest).Ok?
    ensures var p := ParseAfterScheme(scheme, rest).value;
      && p.scheme == scheme
      && rest == "//" + Netloc(p) + tail
      && (tail == "" || tail[0] in NetlocEnd)
      && SplitTail(tail) == (p.path, p.params, p.query, p.fragment)
      && '/' !in Netloc(p) && '?' !in Netloc(p) && '#' !in Netloc(p)
      && '.' !in p.domain && '.' !in p.tld
  {
    var netloc;
    netloc, tail := AfterSchemeParts(scheme, rest);
    CutNetlocParts(rest[2..]);
    var p := ParseAfterScheme(scheme, rest).value;
    assert Netloc(p) == netloc && '.' !in p.domain && '.' !in p.tld by {
      SplitHostShape(netloc);
    }
    PrefixRest(rest, netloc, tail);
  }

  lemma PrefixRest(rest: string, netloc: string, tail: string)
    requires "//" <= rest && rest[2..] == netloc + tail
    ensures rest == "//" + netloc + tail
  {
    assert rest == rest[..2] + rest[2..];
  }

  /** An accepted URL has a ':' that is neither its first nor its last character. */
  lemma SchemeBounds(u: string)
    requires Parse(u).Ok?
    ensures 0 < IndexOf(u, ':') < |u|
  {
    if IndexOf(u, ':') == 0 || IndexOf(u, ':') == |u| {
      assert false;
    }
  }

  /** An accepted URL's scheme is everything before its first ':', which is not its first character. */
  lemma SchemeEnd(u: string) returns (i: nat)
    requires Parse(u).Ok?
    ensures i == IndexOf(u, ':') && 0 < i < |u| && u[i] == ':'
    ensures Parse(u) == ParseAfterScheme(u[..i], u[i + 1..])
  {
    SchemeBounds(u);
    i := IndexOf(u, ':');
  }

  /** An accepted URL is its scheme, "://", the netloc its parts spell, and a tail that splits into the rest. */
  lemma ParseShape(u: string) returns (tail: string)
    requires Parse(u).Ok?
    ensures var p := Parse(u).value;
      && u == p.scheme + "://" + Netloc(p) + tail
      && (tail == "" || tail[0] in NetlocEnd)
      && SplitTail(tail) == (p.path, p.params, p.query, p.fragment)
      && p.scheme != "" && ':' !in p.scheme
      && '/' !in Netloc(p) && '?' !in Netloc(p) && '#' !in Netloc(p)
      && '.' !in p.domain && '.' !in p.tld
  {
    var i := SchemeEnd(u);
    IndexOfPrefixFree(u, ':');
    tail := AfterSchemeShape(u[..i], u[i + 1..]);
    Reassemble(u, i, Netloc(Parse(u).value), tail);
  }

  /** Every URL the parser accepts yields well-formed parts, so parsing its reconstruction gives the same parts again. */
  lemma ParseWellFormed(u: string)
    requires Parse(u).Ok?
    ensures WellFormed(Parse(u).value)
    ensures Parse(Reconstruct(Parse(u).value)) == Parse(u)
  {
    var p := Parse(u).value;
    var tail := ParseShape(u);
    SplitTailParts(tail);
    ParseReconstruct(p);
  }

  /** A URL whose params, query and fragment are all present is reproduced exactly by `get_url(parse_url(u))`. */
  lemma ReconstructParseAllParts(u: string)
    requires Parse(u).Ok?
    requires Parse(u).value.params != "" && Parse(u).value.query != "" && Parse(u).value.fragment != ""
    ensures Reconstruct(Parse(u).value) == u
  {
    var tail := ParseShape(u);
    SplitTailParts(tail);
  }

  /** A URL with nothing after its path but the path is reproduced exactly by `get_url(parse_url(u))`. */
  lemma ReconstructParsePathOnly(u: string)
    requires Parse(u).Ok?
    requires ';' !in u && '?' !in u && '#' !in u
    ensures Reconstruct(Parse(u).value) == u
  {
    var tail := ParseShape(u);
    assert ';' !in tail && '?' !in tail && '#' !in tail;
    SplitTailParts(tail);
  }

  // ---------------------------------------------------------------------------------------------
  // Host comparison

  /** For well-formed parts, two netlocs are equal exactly when subdomain, domain and tld all are. */
  lemma SameNetlocParts(a: ParsedUrl, b: ParsedUrl)
    requires WellFormed(a) && WellFormed(b)
    ensures SameNetloc(a, b) <==> a.subdomain == b.subdomain && a.domain == b.domain && a.tld == b.tld
  {
    if SameNetloc(a, b) {
      SplitHostJoin(a);
      SplitHostJoin(b);
    }
  }

  /** Under either reading, a URL is never a subdomain of one with a different domain name. */
  lemma IsSubdomainNeedsSameDomain(reading: SubdomainReading, a: ParsedUrl, b: ParsedUrl)
    requires IsSubdomain(reading, a, b)
    ensures a.domain == b.domain
  {
  }

  /** Under either reading, a URL is never a subdomain of one on the same netloc, whatever the paths. */
  lemma IsSubdomainNotSameNetloc(reading: SubdomainReading, a: ParsedUrl, b: ParsedUrl)
    requires WellFormed(a) && WellFormed(b)
    requires SameNetloc(a, b)
    ensures !IsSubdomain(reading, a, b)
  {
    SameNetlocParts(a, b);
  }

  /** The registered-domain reading is the stricter one: whatever it accepts, the domain-label reading accepts. */
  lemma RegisteredDomainIsStricter(a: ParsedUrl, b: ParsedUrl)
    requires WellFormed(a) && WellFormed(b)
    requires IsSubdomain(RegisteredDomain, a, b)
    ensures IsSubdomain(DomainLabel, a, b)
  {
    SameNetlocParts(a, b);
  }
}

=== FILE: wrappers.dfy ===
/** Optional values and results that carry an error, used where the modelled code returns None or raises. */
module Wrappers {

  datatype Option<+T> = None | Some(value: T)

  datatype Result<+T, +E> = Ok(value: T) | Err(error: E)
}
